=== FILE: README.md ===
# Snowflake encrypted-key-content profile mapping and the automatic mapping resolver

This project models, in Dafny, two parts of astronomer-cosmos: the code that turns a stored Airflow connection into a dbt profile.

- **`SnowflakeEncryptedPrivateKeyContentPemProfileMapping`** (module `SnowflakeKeyContent`) handles Snowflake connections that carry an encrypted private key's PEM text in their `extra` bag. The model covers:
  - its field tables;
  - the `conn` property, which rewrites legacy `extra__snowflake__*` keys to plain names;
  - `transform_account`, which appends a region to the account;
  - `transform_private_key`, which re-encodes a PEM key as base64 DER, with the cryptography library left abstract;
  - `profile`, which merges mapped params, `profile_args` and the forced secret placeholders, then drops nulls;
  - the environment variables that carry the secrets;
  - `can_claim_connection`.
- **`get_automatic_profile_mapping`** (module `Profiles`) makes one first-match pass over the ordered `profile_mappings` registry. The 16 other mappings appear as an abstract claim oracle.

Supporting modules:

- `Wrappers`: `Option` and `Result`.
- `Strings`:
  - Python's `t in s`;
  - `s.replace(pat, "")`, which removes every occurrence of `pat`;
  - ASCII `upper()`.
- `PyDict`: a Python `dict` as an insertion-ordered list of pairs, so that "a later key overwrites an earlier one" can be stated.
- `ProfileBase`: the connection record and the base-class helpers the variant relies on:
  - parameter-path lookup;
  - truthiness;
  - `filter_null`;
  - environment-variable names and `{{ env_var('...') }}` placeholders.
- `SnowflakeProperties`: the lemmas relating the variant's operations.
- `Scenarios`: the repository's test connections, stated as lemmas.

## Model

Paths are relative to the repository root.

| member | source | states |
|---|---|---|
| Strings.RemoveAllUnchangedIff | cosmos/profiles/snowflake/user_encrypted_privatekey_content.py:65 | `key.replace(ns, "")` returns the key unchanged exactly when the namespace does not occur in it |
| Strings.RemoveAllInfix | cosmos/profiles/snowflake/user_encrypted_privatekey_content.py:65 | the scan removes every occurrence, not just the first: when no occurrence starts inside `a` (that is, `a` followed by all but the last character of `pat` does not contain `pat`), `a + pat + b` becomes `a` followed by `b` with all of its occurrences removed, for any `b` |
| Strings.RemoveAllLeading | cosmos/profiles/snowflake/user_encrypted_privatekey_content.py:65 | a leading occurrence is cut off and the rest of the string is processed the same way |
| Strings.RemoveAll | cosmos/profiles/snowflake/user_encrypted_privatekey_content.py:65 | removing every occurrence never lengthens a string; a string in which the pattern occurs gets strictly shorter; any other string comes back unchanged |
| Strings.Contains | cosmos/profiles/snowflake/user_encrypted_privatekey_content.py:90 | `t in s` can only hold when `t` is no longer than `s` |
| Strings.ContainsIff | cosmos/profiles/snowflake/user_encrypted_privatekey_content.py:90 | the recursive substring test `region in account` holds exactly when some position of the account starts an occurrence of the region |
| PyDict.Get | cosmos/profiles/snowflake/user_encrypted_privatekey_content.py:63 | `d.get(k)` is `None` exactly when no entry has key `k` |
| PyDict.Set | cosmos/profiles/snowflake/user_encrypted_privatekey_content.py:64-67 | inserting a key into a dict makes it hold the new value and leaves every other key's lookup unchanged |
| SnowflakeKeyContent.RewriteKeys | cosmos/profiles/snowflake/user_encrypted_privatekey_content.py:64-67 | the rewritten bag is a dict again: no name occurs twice, even when several keys rewrite to the same name |
| SnowflakeKeyContent.RewriteKeysLaterWins | cosmos/profiles/snowflake/user_encrypted_privatekey_content.py:64-67 | after the key rewrite, a name holds the value of the LAST entry whose key rewrites to it, so on a collision the later entry wins |
| SnowflakeKeyContent.RewriteKeysAbsent | cosmos/profiles/snowflake/user_encrypted_privatekey_content.py:64-67 | a name that no key rewrites to is absent after the rewrite |
| SnowflakeKeyContent.NormalizeExtra | cosmos/profiles/snowflake/user_encrypted_privatekey_content.py:59-71 | the bag is left as it is unless the legacy account key is truthy; when it is, every key loses every occurrence of the namespace, values are kept, later entries win, and nothing else appears; a bag whose keys are distinct keeps them distinct |
| SnowflakeProperties.NormalizeExtraIdempotent | cosmos/profiles/snowflake/user_encrypted_privatekey_content.py:59-71 | reading the bag again through the rewrite changes nothing, as long as no key rewrites to `extra__snowflake__account` itself |
| SnowflakeProperties.StripLegacyKey | cosmos/profiles/snowflake/user_encrypted_privatekey_content.py:65 | a legacy key `extra__snowflake__<name>` becomes `<name>` when the name does not itself contain the namespace |
| SnowflakeProperties.StripPlainKey | cosmos/profiles/snowflake/user_encrypted_privatekey_content.py:65 | a key without the namespace keeps its name through the rewrite |
| SnowflakeProperties.StripLegacyInsideKey | cosmos/profiles/snowflake/user_encrypted_privatekey_content.py:65 | the namespace is removed even in the middle of a key (`user_extra__snowflake__key` becomes `user_key`) |
| SnowflakeProperties.LegacyCollisionLaterWins | cosmos/profiles/snowflake/user_encrypted_privatekey_content.py:64-67 | when both `extra__snowflake__<name>` and `<name>` are present, whichever comes later in the bag supplies `<name>`'s value, in either order |
| SnowflakeProperties.LegacyRewriteNeedsTruthyAccount | cosmos/profiles/snowflake/user_encrypted_privatekey_content.py:63 | when the legacy account key is missing or empty, the bag is read exactly as stored, so legacy keys are not rewritten and a plain name that is not stored stays absent |
| SnowflakeProperties.EmptyLegacyAccountExample | cosmos/profiles/snowflake/user_encrypted_privatekey_content.py:63 | with an empty legacy account, `extra__snowflake__database` is not rewritten, so `database` is not found |
| SnowflakeProperties.WriteBackWellFormed | cosmos/profiles/snowflake/user_encrypted_privatekey_content.py:69 | writing the normalised bag back into the connection keeps a connection whose `extra` keys are distinct in that state |
| SnowflakeProperties.LegacyOf | cosmos/profiles/snowflake/user_encrypted_privatekey_content.py:54-57 | the legacy spelling of a bag puts the namespace in front of every key, keeping order and values |
| SnowflakeProperties.LegacyKeysDistinct | cosmos/profiles/snowflake/user_encrypted_privatekey_content.py:54-57 | adding the namespace keeps distinct keys distinct |
| SnowflakeProperties.PlainExtraFormats | cosmos/profiles/snowflake/user_encrypted_privatekey_content.py:63 | a plain-name bag with a truthy account does not trigger the rewrite, and its legacy spelling does |
| SnowflakeProperties.LegacyNormalizesToCurrent | cosmos/profiles/snowflake/user_encrypted_privatekey_content.py:59-71 | a plain-name bag is read unchanged, and its legacy spelling is read as the same lookups |
| SnowflakeProperties.LegacyFormatEquivalent | cosmos/profiles/snowflake/user_encrypted_privatekey_content.py:51-71 | a connection stored with legacy keys gets the same profile, environment variables and claim decision as its plain-key twin |
| SnowflakeProperties.SameViewSameMapping | cosmos/profiles/snowflake/user_encrypted_privatekey_content.py:51-71 | everything the mapping computes depends on the connection only through its attributes and the normalised extra lookups |
| SnowflakeKeyContent.TransformAccount | cosmos/profiles/snowflake/user_encrypted_privatekey_content.py:87-93 | the account is a prefix of the result; a truthy region always ends up contained in it; the result equals the account exactly when the region is falsy or already occurs in the account; any other result is `account.region` |
| SnowflakeProperties.TransformAccountIdempotent | cosmos/profiles/snowflake/user_encrypted_privatekey_content.py:89-91 | transforming an already-transformed account with the same region changes nothing |
| SnowflakeKeyContent.TransformPrivateKey | cosmos/profiles/snowflake/user_encrypted_privatekey_content.py:95-123 | a key the loader rejects under the connection password (its `ValueError`) is returned unchanged; a key it parses is returned re-encoded as base64 DER under that password. The model always returns a value: the two cases in which the source raises instead are under "## Left out" |
| SnowflakeProperties.ParsedKeyReloads | tests/profiles/snowflake/test_snowflake_user_encrypted_privatekey_content.py:274-306 | for a key content that parses under a non-empty password, the exported `COSMOS_CONN_SNOWFLAKE_PRIVATE_KEY` is the parsed key re-encoded under that password, the passphrase variable holds the password, and under the library's round-trip law decoding the one with the other gives back the parsed key |
| SnowflakeProperties.TransformedKeyReloads | cosmos/profiles/snowflake/user_encrypted_privatekey_content.py:115-123 | if the library's encode/parse round trip holds, the transformed key parses back under the password to the key that was read |
| SnowflakeProperties.TransformKeepsTruthy | cosmos/profiles/snowflake/user_encrypted_privatekey_content.py:87-123 | a non-empty field read from the connection stays non-empty through its transform, given that the library never emits an empty encoding |
| ProfileBase.ResolvePath | cosmos/profiles/snowflake/user_encrypted_privatekey_content.py:40-49 | each path the mapping table uses reads what it names: an `extra.<key>` path reads that key of the normalised bag, and `login`, `password` and `schema` read those attributes |
| SnowflakeKeyContent.RawFields | cosmos/profiles/snowflake/user_encrypted_privatekey_content.py:40-49 | each of the eight mapped fields reads exactly the attribute or extra key the mapping table names |
| SnowflakeKeyContent.DbtValue | cosmos/profiles/snowflake/user_encrypted_privatekey_content.py:40-49 | a truthy `profile_args` value wins; an unmapped field without one is `None`; otherwise a mapped field has a value exactly when its connection value is truthy, and that value is the field's transform of the connection value |
| SnowflakeKeyContent.Transform | cosmos/profiles/snowflake/user_encrypted_privatekey_content.py:87-123 | the account keeps its stored text as a prefix and changes only when there is a truthy region; a private key that does not parse is kept, and one that parses becomes the library's base64 DER encoding of the parsed key under the connection password; every other field is passed through unchanged |
| SnowflakeKeyContent.MappedParams | cosmos/profiles/snowflake/user_encrypted_privatekey_content.py:77 | the mapped params hold `type = snowflake` and one entry per mapped field, with that field's value |
| SnowflakeKeyContent.SecretPlaceholders | cosmos/profiles/snowflake/user_encrypted_privatekey_content.py:79-81 | the forced entries are exactly the two secret fields, each with its env-var placeholder |
| SnowflakeKeyContent.ProfileVars | cosmos/profiles/snowflake/user_encrypted_privatekey_content.py:76-82 | the right-biased merge holds, per key, the placeholder for a secret field, else the `profile_args` entry, else the mapped value; every key that resolves to a value is present |
| ProfileBase.FilterNull | cosmos/profiles/snowflake/user_encrypted_privatekey_content.py:84-85 | exactly the non-null entries survive, with their values |
| SnowflakeKeyContent.Profile | cosmos/profiles/snowflake/user_encrypted_privatekey_content.py:73-85 | the profile's keys are exactly those that resolve to a non-null value, and each holds that value; both secret fields always hold their placeholders |
| SnowflakeProperties.ProfileIs | cosmos/profiles/snowflake/user_encrypted_privatekey_content.py:73-85 | a map that agrees with the per-key resolution on every key is the profile |
| SnowflakeProperties.OverrideReplacesEntry | cosmos/profiles/snowflake/user_encrypted_privatekey_content.py:77-78 | overriding a non-secret field in `profile_args` replaces that one profile entry and leaves every other entry as it was |
| SnowflakeProperties.OverrideResolved | cosmos/profiles/snowflake/user_encrypted_privatekey_content.py:77-78 | per key: an override changes the resolved value of its own key only |
| SnowflakeProperties.SecretsMatchPlaceholders | cosmos/profiles/snowflake/user_encrypted_privatekey_content.py:79-81 | each secret field's placeholder names that field's environment variable, and every exported variable is named by some placeholder |
| SnowflakeProperties.SecretOverrideReachesEnvVar | cosmos/profiles/snowflake/user_encrypted_privatekey_content.py:79-82 | a `profile_args` value for a secret field goes into its environment variable, never into the profile, which keeps the placeholder |
| SnowflakeProperties.ProfileIgnoresSecrets | cosmos/profiles/snowflake/user_encrypted_privatekey_content.py:79-82 | connections that differ only in password and key content have the same profile |
| SnowflakeProperties.PlainRawAgree | cosmos/profiles/snowflake/user_encrypted_privatekey_content.py:40-49 | the non-secret fields never read the password or the key content |
| SnowflakeProperties.SameValuesSameProfile | cosmos/profiles/snowflake/user_encrypted_privatekey_content.py:73-85 | the profile depends on the connection only through the non-secret fields' values |
| SnowflakeProperties.SameValuesSameEnvVars | cosmos/profiles/snowflake/user_encrypted_privatekey_content.py:36-39 | the environment variables depend on the connection only through the secret fields' values |
| SnowflakeKeyContent.EnvVars | cosmos/profiles/snowflake/user_encrypted_privatekey_content.py:36-39 | a secret field's variable `COSMOS_CONN_SNOWFLAKE_<FIELD>` is present exactly when the field has a value, and then holds it; no other variable appears |
| ProfileBase.EnvVarName | tests/profiles/snowflake/test_snowflake_user_encrypted_privatekey_content.py:217-222 | a variable name is `COSMOS_CONN_`, then the upper-cased connection type, then `_`, then the upper-cased field, each part at its own position |
| ProfileBase.EnvVarFormat | cosmos/profiles/snowflake/user_encrypted_privatekey_content.py:80-81 | `get_env_var_format` gives a placeholder that names exactly the field's environment variable |
| ProfileBase.PlaceholderRoundTrip | tests/profiles/snowflake/test_snowflake_user_encrypted_privatekey_content.py:170-171 | the variable name embedded in a placeholder is recovered exactly |
| ProfileBase.PlaceholderNameSound | tests/profiles/snowflake/test_snowflake_user_encrypted_privatekey_content.py:170-171 | any string read as a placeholder is the placeholder of the name read from it |
| SnowflakeKeyContent.CanClaim | cosmos/profiles/snowflake/user_encrypted_privatekey_content.py:23-35 | a claimed connection has a non-empty value for every required field in what the profile resolves |
| SnowflakeProperties.ClaimValueTruthy | cosmos/profiles/snowflake/user_encrypted_privatekey_content.py:23-49 | a required field counts as present exactly when its `profile_args` entry is truthy, if the field is not secret and has one; otherwise when it has a truthy override or a truthy connection value |
| SnowflakeProperties.ClaimIff | cosmos/profiles/snowflake/user_encrypted_privatekey_content.py:23-35 | a connection is claimed exactly when its type is `snowflake` and every required field passes that test: a non-secret field present in `profile_args` is decided by that entry alone, and any other by a truthy override or a truthy connection value. Where the key transform raises in the source, there is no claim decision at all (see "## Left out") |
| SnowflakeProperties.ClaimedMappingComplete | cosmos/profiles/snowflake/user_encrypted_privatekey_content.py:23-39 | a claimed connection's profile holds every required field with a non-empty value, and both secret variables are exported with non-empty values |
| SnowflakeProperties.OverrideKeepsClaim | cosmos/profiles/snowflake/user_encrypted_privatekey_content.py:76-78 | a non-empty override of a field that is not secret never stops a claim |
| SnowflakeProperties.ClaimNeedsEveryField | tests/profiles/snowflake/test_snowflake_user_encrypted_privatekey_content.py:95-131 | without overrides, a claimed connection has type `snowflake` and a truthy login, schema, password, account, database, warehouse and key content; removing any of them prevents the claim |
| SnowflakeProperties.ClaimWhenAllPresent | tests/profiles/snowflake/test_snowflake_user_encrypted_privatekey_content.py:133-137 | with all of those present, the connection is claimed |
| SnowflakeProperties.AccountResolved | cosmos/profiles/snowflake/user_encrypted_privatekey_content.py:87-93 | without an override, the account resolves to the stored account passed through `transform_account` with the stored region |
| SnowflakeProperties.AccountGetsRegion | tests/profiles/snowflake/test_snowflake_user_encrypted_privatekey_content.py:164-173 | without an account override, an account and a region that is not already part of it give the profile account `account.region` |
| SnowflakeProperties.AccountWithoutRegion | tests/profiles/snowflake/test_snowflake_user_encrypted_privatekey_content.py:247-256 | with no region, the profile account is the stored account |
| SnowflakeProperties.UnparsedKeyPassesThrough | tests/profiles/snowflake/test_snowflake_user_encrypted_privatekey_content.py:259-271 | a key that does not parse as PEM is exported unchanged, next to the password |
| Profiles.Rank | cosmos/profiles/__init__.py:27-45 | every mapping sits at exactly one position of the registry |
| Profiles.FirstClaim | cosmos/profiles/__init__.py:58-61 | the search returns the position of the first entry that claims; no earlier entry claims; it returns nothing exactly when no entry claims |
| Profiles.NormalizeArgs | cosmos/profiles/__init__.py:55-56 | missing `profile_args` becomes `{}`; given arguments (an empty dict included) are kept as they are |
| Profiles.NoMappingMessage | cosmos/profiles/__init__.py:63 | the error message starts with the fixed text and names the connection id |
| Profiles.Resolve | cosmos/profiles/__init__.py:48-63 | an unknown id fails; on success the mapping carries the id and the normalised arguments, claims the connection, and no earlier entry claims; it fails exactly when no entry claims, with the message naming the id. This presumes that every claim check returns; where the key-content mapping's check raises, the source aborts resolution instead (see "## Left out") |
| Profiles.LaterMappingsNotConsulted | cosmos/profiles/__init__.py:58-61 | changing the answers of the entries after the chosen one does not change the result |
| Profiles.ClaimantShadowsLater | cosmos/profiles/__init__.py:58-61 | once any entry claims, resolution succeeds with that entry or an earlier one |
| Profiles.RegisteredBeforeUserPassword | cosmos/profiles/__init__.py:35-36 | the entries up to the key-content mapping sit at their rank, and none of them is the user/password mapping |
| Profiles.ContentClaimShadowsUserPassword | cosmos/profiles/__init__.py:35-36 | a connection the key-content mapping claims never resolves to the user/password mapping registered after it |
| Profiles.ContentMappingSelected | cosmos/profiles/__init__.py:35-36 | when the other mappings reject non-matching connection types, a connection the key-content mapping claims resolves to exactly that mapping, with the caller's arguments |
| Scenarios.FixtureExtraLookups | tests/profiles/snowflake/test_snowflake_user_encrypted_privatekey_content.py:23-38 | the test connection's plain-key extra bag is read as it is |
| Scenarios.FixtureClaimed | tests/profiles/snowflake/test_snowflake_user_encrypted_privatekey_content.py:23-38 | the test connection is claimed without overrides |
| Scenarios.FixtureSelected | tests/profiles/snowflake/test_snowflake_user_encrypted_privatekey_content.py:140-151 | the test connection, with no arguments, resolves to the key-content mapping |
| Scenarios.SecretVarNames | tests/profiles/snowflake/test_snowflake_user_encrypted_privatekey_content.py:170-171 | the two secret variables are `COSMOS_CONN_SNOWFLAKE_PRIVATE_KEY` and `COSMOS_CONN_SNOWFLAKE_PRIVATE_KEY_PASSPHRASE` |
| Scenarios.RegionNotInAccount | tests/profiles/snowflake/test_snowflake_user_encrypted_privatekey_content.py:31-32 | `my_region` does not occur in `my_account` |
| Scenarios.FixtureAccount | tests/profiles/snowflake/test_snowflake_user_encrypted_privatekey_content.py:164-173 | the test connection's profile account is `my_account.my_region` |
| Scenarios.FixtureProfileIs | tests/profiles/snowflake/test_snowflake_user_encrypted_privatekey_content.py:154-176 | without overrides the test connection's profile is exactly the eight entries the test expects (`type`, `user`, both placeholders, `schema`, `account.region`, `database`, `warehouse`), with no `role`, whatever the key library does |
| Scenarios.FixtureEnvVars | tests/profiles/snowflake/test_snowflake_user_encrypted_privatekey_content.py:208-222 | when `my_content` does not parse as PEM, the exported variables are exactly the key content and the password |
| Scenarios.FixtureOverrideSelected | tests/profiles/snowflake/test_snowflake_user_encrypted_privatekey_content.py:185-191 | with `database` overridden, the same mapping is chosen and it carries the override |
| Scenarios.FixtureOverrideClaimed | tests/profiles/snowflake/test_snowflake_user_encrypted_privatekey_content.py:185-188 | the override does not stop the connection from being claimed |
| Scenarios.FixtureOverrideProfile | tests/profiles/snowflake/test_snowflake_user_encrypted_privatekey_content.py:193-205 | the overridden profile differs from the plain one only in `database` |
| Scenarios.OldFormatKeys | tests/profiles/snowflake/test_snowflake_user_encrypted_privatekey_content.py:236-241 | the old-format connection's keys are the test's `extra__snowflake__` keys |
| Scenarios.OldFormatNoNamespace | tests/profiles/snowflake/test_snowflake_user_encrypted_privatekey_content.py:236-241 | none of the plain names behind those keys contains the namespace |
| Scenarios.OldFormatCurrentPlain | tests/profiles/snowflake/test_snowflake_user_encrypted_privatekey_content.py:236-241 | the plain names are distinct, and the account among them is truthy |
| Scenarios.OldFormatWorks | tests/profiles/snowflake/test_snowflake_user_encrypted_privatekey_content.py:225-256 | the old-format connection has the profile and environment variables of its plain-key twin, and its profile account is `my_account` |

## Left out

- **JSON (de)serialisation of `extra`.** This covers `extra_dejson` and `json.dumps` at `conn`'s line 69. `extra` is modelled directly as the parsed bag: a list of string pairs in insertion order. Non-string JSON values are not modelled.
- **Airflow's `BaseHook.get_connection`.** This is a lookup in an external store. It is modelled as a `map` from id to connection, and a missing id gives `ConnectionNotFound`. Airflow itself raises there; that exception's type is not modelled.
- **The `cryptography` library and base64.** These appear as the three function fields of `Crypto`. Two assumptions are named wherever they are used:
  - `RoundTrips`: what is encoded under a passphrase parses back under it;
  - `EncodesNonEmpty`: no encoding is empty.

  UTF-8 encoding and decoding are not modelled. The exceptions the library raises besides the loader's `ValueError` are described in the next three lines.
- SnowflakeKeyContent.TransformPrivateKey: two raises in the source are not modelled.
  - A key that parses while the connection has no password reaches `BestAvailableEncryption(None)` at lines 119-121. That call is outside the `try` of lines 107-113 and raises `ValueError`. The model returns the key re-encoded with passphrase `None`.
  - `load_pem_private_key` raises `TypeError` when a password is given for an unencrypted key, or none for an encrypted one, and only `ValueError` is caught. The abstract loader of `Crypto` has no raising outcome: it either parses or fails, and a failure returns the text unchanged.
- Profiles.Resolve: in the source, `can_claim_connection` builds the profile. Building it runs `transform_private_key` on the key from the connection or from `profile_args`. When that call raises, the exception escapes `get_automatic_profile_mapping` at the key-content mapping's registry position (`cosmos/profiles/__init__.py:58-61`), and no later mapping is tried. The model gets a value there, so its resolution can go on to a later mapping such as `SnowflakePrivateKeyPem`.
- SnowflakeProperties.ClaimIff: on those same inputs the source has no claim decision, because the claim check raises. The lemma's "exactly when" describes the model's decision there, not the source's.
- **`cosmos/profiles/base.py`** is not part of this model. `get_dbt_value`, `mapped_params`, `filter_null`, `get_env_var_format`, `env_vars` and `can_claim_connection` are reconstructed as small functions, pinned by how the variant and its tests use them.
  - `can_claim_connection` tests each required field for truthiness: a secret field through `get_dbt_value`, any other field through the value the profile holds for it.
- SnowflakeKeyContent.EnvVars: leaves out a secret field that has no value. What the base class does in that case is not known here, because `cosmos/profiles/base.py` is not part of this model.
- ProfileBase.ResolvePath: only the paths in the mapping table, plus `conn_type`, are modelled. Any other path gives `None`, whereas the base class would read that attribute of the connection.
- **The 16 other registry mappings.** Only their registry positions are modelled. Their claim decisions are an abstract oracle. The selection lemmas assume, as `TypeGuarded`, that a mapping for another connection type never claims a Snowflake connection.
- **`profile_args` values.** They are strings or `None`. Non-string overrides (numbers, booleans) are not modelled.
- **`str.upper()`** is reduced to ASCII letters. The names it is applied to are ASCII.
- **Re-export lists.** `cosmos/profiles/snowflake/__init__.py` and the `__all__` lists only re-export names. That includes the name at `cosmos/profiles/__init__.py:74`, which is never imported.
- **`dbt_profile_type`** is kept only as a constant.
- **Secret placeholders.** The code always sets both placeholders, even when the secret has no value; `SnowflakeKeyContent.Profile` always holds both.
- **The p8 round-trip test.** `SnowflakeProperties.ParsedKeyReloads` states it about the exported environment variables, and only under the library's round-trip assumption. It does not state it about a concrete key file, and the test's final re-encoding to PEM is not modelled.
- SnowflakeKeyContent.Extra: the model applies the key rewrite once. In the code, `super().conn` is the base class's cached connection, and line 69 writes the rewritten bag back into it, so every later access rewrites the already-rewritten bag. `SnowflakeProperties.NormalizeExtraIdempotent` shows that the two readings agree unless some key rewrites to `extra__snowflake__account` itself; that one case is not modelled.
- **Override truthiness.** `get_dbt_value` takes a `profile_args` value only when it is truthy, so `SnowflakeKeyContent.DbtValue` falls back to the connection under a falsy override. The profile merge and the claim test for non-secret fields use key presence instead, as `SnowflakeKeyContent.ResolvedValue` states.
- **Well-formed connections.** `ProfileBase.WellFormed` says that an `extra` bag parsed from JSON has distinct keys. The operations do not require it. `SnowflakeKeyContent.NormalizeExtra` preserves distinct keys, and `SnowflakeProperties.WriteBackWellFormed` shows that the write-back at line 69 keeps a connection well-formed.

=== FILE: profile_base.dfy ===
/** What every profile mapping shares: the connection record it reads, the
    lookup of a dotted parameter path in that record, Python truthiness,
    null filtering, and the environment-variable names and placeholders
    under which secrets are handed to dbt.

    The base class that defines these in the repository
    (cosmos/profiles/base.py) is not part of this model; each helper here
    is pinned by how the Snowflake variant and its tests use it. */
module ProfileBase {
  import opened Wrappers
  import opened Strings
  import opened PyDict

  /** A stored Airflow connection.  `None` stands for an unset attribute;
      `extra` is the connection's JSON extra bag after parsing (a missing
      bag parses to the empty dict). */
  datatype Connection = Connection(
    connId: string,
    connType: Option<string>,
    login: Option<string>,
    password: Option<string>,
    schema: Option<string>,
    extra: Dict<string>)

  /** A connection whose extra bag came from parsing a JSON object: each key
      occurs once, as in the Python dict `json.loads` builds. */
  ghost predicate WellFormed(conn: Connection) {
    KeysDistinct(conn.extra)
  }

  /** The user's `profile_args`: logical field name to override value,
      where `None` is an explicit Python `None`. */
  type ProfileArgs = map<string, Option<string>>

  /** Python truthiness of an optional string: neither `None` nor `""`. */
  predicate Truthy(v: Option<string>) {
    v.Some? && v.value != ""
  }

  const ExtraPrefix: string := "extra."

  /** The value a parameter path names in a connection: `extra.<key>` is a
      lookup in the (already normalised) extra bag, any other path is a
      top-level attribute.  A missing key or unknown attribute is `None`,
      never an error. */
  function ResolvePath(conn: Connection, extra: Dict<string>, path: string): (r: Option<string>)
    ensures IsPrefix(ExtraPrefix, path) ==> r == Get(extra, path[|ExtraPrefix|..])
    ensures path == "login" ==> r == conn.login
    ensures path == "password" ==> r == conn.password
    ensures path == "schema" ==> r == conn.schema
    ensures !IsPrefix(ExtraPrefix, path) && path !in {"login", "password", "schema", "conn_type"} ==> r.None?
  {
    assert !IsPrefix(ExtraPrefix, "schema") by { assert "schema"[0] != ExtraPrefix[0]; }
    if IsPrefix(ExtraPrefix, path) then Get(extra, path[|ExtraPrefix|..])
    else if path == "login" then conn.login
    else if path == "password" then conn.password
    else if path == "schema" then conn.schema
    else if path == "conn_type" then conn.connType
    else None
  }

  /** `filter_null`: drop every entry whose value is `None`, keep the rest as they are. */
  function FilterNull(m: map<string, Option<string>>): (r: map<string, string>)
    ensures forall k :: k in r <==> k in m && m[k].Some?
    ensures forall k :: k in r ==> m[k] == Some(r[k])
  {
    map k | k in m && m[k].Some? :: m[k].value
  }

  const EnvVarPrefix: string := "COSMOS_CONN_"

  /** `COSMOS_CONN_<CONNECTION TYPE>_<FIELD>`, upper-cased: the environment
      variable that carries a secret field's value. */
  function EnvVarName(connType: string, field: string): (r: string)
    ensures IsPrefix(EnvVarPrefix, r)
    ensures |r| == |EnvVarPrefix| + |connType| + 1 + |field|
    ensures r[|EnvVarPrefix|..|EnvVarPrefix| + |connType|] == Upper(connType)
    ensures r[|EnvVarPrefix| + |connType|] == '_'
    ensures r[|r| - |field|..] == Upper(field)
  {
    var r := EnvVarPrefix + Upper(connType) + "_" + Upper(field);
    assert r[|EnvVarPrefix|..|EnvVarPrefix| + |connType|] == Upper(connType);
    assert r[|r| - |field|..] == Upper(field);
    r
  }

  const PlaceholderOpen: string := "{{ env_var('"
  const PlaceholderClose: string := "') }}"

  /** The Jinja expression dbt evaluates to read environment variable `name`. */
  function Placeholder(name: string): (r: string)
    ensures |r| == |PlaceholderOpen| + |name| + |PlaceholderClose|
  {
    PlaceholderOpen + name + PlaceholderClose
  }

  /** `get_env_var_format`: the placeholder that stands for a secret field
      in the profile; it names exactly that field's environment variable. */
  function EnvVarFormat(connType: string, field: string): (r: string)
    ensures PlaceholderName(r) == Some(EnvVarName(connType, field))
  {
    PlaceholderRoundTrip(EnvVarName(connType, field));
    Placeholder(EnvVarName(connType, field))
  }

  /** The environment variable a placeholder refers to, or `None` for a
      string that is not a placeholder. */
  function PlaceholderName(p: string): Option<string> {
    if |p| >= |PlaceholderOpen| + |PlaceholderClose| && IsPrefix(PlaceholderOpen, p) && IsSuffix(PlaceholderClose, p)
    then Some(p[|PlaceholderOpen|..|p| - |PlaceholderClose|])
    else None
  }

  /** The name embedded in a placeholder is recovered exactly, so a tool
      that substitutes environment variables reads the very variable the
      placeholder was built from. */
  lemma PlaceholderRoundTrip(name: string)
    ensures PlaceholderName(Placeholder(name)) == Some(name)
  {
    var p := Placeholder(name);
    assert p[..|PlaceholderOpen|] == PlaceholderOpen;
    assert p[|p| - |PlaceholderClose|..] == PlaceholderClose;
    assert p[|PlaceholderOpen|..|p| - |PlaceholderClose|] == name;
  }

  /** Conversely, every string read as a placeholder is the placeholder of the name read from it. */
  lemma PlaceholderNameSound(p: string)
    ensures PlaceholderName(p).Some? ==> Placeholder(PlaceholderName(p).value) == p
  {
    if PlaceholderName(p).Some? {
      var n := PlaceholderName(p).value;
      assert p == p[..|PlaceholderOpen|] + n + p[|p| - |PlaceholderClose|..];
    }
  }
}

=== FILE: profiles.dfy ===
/** The resolver: given a connection id and optional profile arguments, try
    every registered profile mapping in a fixed order and return the first
    one that claims the connection.

    Only the Snowflake encrypted-private-key-content mapping is modelled in
    full; whether any other mapping claims a connection is a parameter
    `others` of the resolver, so every statement here holds whatever those
    mappings decide. */
module Profiles {
  import opened Wrappers
  import opened Strings
  import opened ProfileBase
  import opened SnowflakeKeyContent

  /** The registered profile mappings, one constructor per class. */
  datatype Variant =
    | AthenaAccessKey
    | GoogleCloudServiceAccountFile
    | GoogleCloudServiceAccountDict
    | GoogleCloudOauth
    | DatabricksToken
    | PostgresUserPassword
    | RedshiftUserPassword
    | SnowflakeEncryptedPrivateKeyContentPem
    | SnowflakeUserPassword
    | SnowflakeEncryptedPrivateKeyPem
    | SnowflakePrivateKeyPem
    | SparkThrift
    | ExasolUserPassword
    | TrinoLDAP
    | TrinoCertificate
    | TrinoJWT
    | VerticaUserPassword

  /** `profile_mappings`: the order in which the resolver tries the mappings. */
  const ProfileMappings: seq<Variant> := [
    AthenaAccessKey,
    GoogleCloudServiceAccountFile,
    GoogleCloudServiceAccountDict,
    GoogleCloudOauth,
    DatabricksToken,
    PostgresUserPassword,
    RedshiftUserPassword,
    SnowflakeEncryptedPrivateKeyContentPem,
    SnowflakeUserPassword,
    SnowflakeEncryptedPrivateKeyPem,
    SnowflakePrivateKeyPem,
    SparkThrift,
    ExasolUserPassword,
    TrinoLDAP,
    TrinoCertificate,
    TrinoJWT,
    VerticaUserPassword
  ]

  /** The position of a mapping in the registry: every mapping is registered exactly once. */
  function Rank(v: Variant): (r: nat)
    ensures r < |ProfileMappings| && ProfileMappings[r] == v
    ensures forall i :: 0 <= i < |ProfileMappings| && ProfileMappings[i] == v ==> i == r
  {
    match v
    case AthenaAccessKey => 0
    case GoogleCloudServiceAccountFile => 1
    case GoogleCloudServiceAccountDict => 2
    case GoogleCloudOauth => 3
    case DatabricksToken => 4
    case PostgresUserPassword => 5
    case RedshiftUserPassword => 6
    case SnowflakeEncryptedPrivateKeyContentPem => 7
    case SnowflakeUserPassword => 8
    case SnowflakeEncryptedPrivateKeyPem => 9
    case SnowflakePrivateKeyPem => 10
    case SparkThrift => 11
    case ExasolUserPassword => 12
    case TrinoLDAP => 13
    case TrinoCertificate => 14
    case TrinoJWT => 15
    case VerticaUserPassword => 16
  }

  /** The mappings whose Airflow connection type is `snowflake`. */
  predicate IsSnowflake(v: Variant) {
    v in {SnowflakeEncryptedPrivateKeyContentPem, SnowflakeUserPassword,
          SnowflakeEncryptedPrivateKeyPem, SnowflakePrivateKeyPem}
  }

  /** The decision of the mappings that are not modelled: does mapping `v`,
      built with these profile arguments, claim this connection? */
  type ClaimOracle = (Variant, Connection, ProfileArgs) -> bool

  /** Every mapping first compares the connection's type with its own; a
      mapping of another type therefore never claims a Snowflake connection. */
  ghost predicate TypeGuarded(others: ClaimOracle) {
    forall v: Variant, c: Connection, a: ProfileArgs :: !IsSnowflake(v) && c.connType == Some(AirflowConnectionType) ==> !others(v, c, a)
  }

  /** `can_claim_connection()` of mapping `v`. */
  function Claims(v: Variant, conn: Connection, args: ProfileArgs, crypto: Crypto, others: ClaimOracle): bool {
    if v == SnowflakeEncryptedPrivateKeyContentPem then CanClaim(conn, args, crypto)
    else others(v, conn, args)
  }

  /** The position of the first entry of `reg` that `claim` accepts. */
  function FirstClaim(reg: seq<Variant>, claim: Variant -> bool): (r: Option<nat>)
    ensures r.Some? ==> r.value < |reg| && claim(reg[r.value])
    ensures r.Some? ==> forall j :: 0 <= j < r.value ==> !claim(reg[j])
    ensures r.None? <==> forall j :: 0 <= j < |reg| ==> !claim(reg[j])
    decreases |reg|
  {
    if |reg| == 0 then None
    else if claim(reg[0]) then Some(0)
    else
      var rest := FirstClaim(reg[1..], claim);
      assert forall j :: 1 <= j < |reg| ==> reg[j] == reg[1..][j - 1];
      match rest
      case None => None
      case Some(i) => Some(i + 1)
  }

  /** An entry that claims, with no claimant before it, is the one found. */
  lemma FirstClaimAt(reg: seq<Variant>, claim: Variant -> bool, i: int)
    requires 0 <= i < |reg| && claim(reg[i])
    requires forall j :: 0 <= j < i ==> !claim(reg[j])
    ensures FirstClaim(reg, claim) == Some(i)
  {
  }

  /** When some entry claims, the search stops there or earlier. */
  lemma FirstClaimAtMost(reg: seq<Variant>, claim: Variant -> bool, i: int)
    requires 0 <= i < |reg| && claim(reg[i])
    ensures FirstClaim(reg, claim).Some? && FirstClaim(reg, claim).value <= i
  {
  }

  /** `if not profile_args: profile_args = {}`: a missing argument dict is an empty one. */
  function NormalizeArgs(profileArgs: Option<ProfileArgs>): (r: ProfileArgs)
    ensures profileArgs.Some? ==> r == profileArgs.value
    ensures profileArgs.None? ==> r == map[]
  {
    if profileArgs.None? || profileArgs.value == map[] then map[] else profileArgs.value
  }

  /** A constructed profile mapping: the class chosen and what it was built with. */
  datatype ProfileMapping = ProfileMapping(variant: Variant, connId: string, profileArgs: ProfileArgs)

  /** The two ways resolution fails: the connection store has no such
      connection, or no mapping claims it (Python's `ValueError`). */
  datatype ResolveError =
    | ConnectionNotFound(connId: string)
    | NoProfileMapping(message: string)

  const NoMappingPrefix: string := "Could not find a profile mapping for connection "

  /** The `ValueError` message; it names the connection. */
  function NoMappingMessage(connId: string): (r: string)
    ensures IsPrefix(NoMappingPrefix, r)
    ensures Contains(r, connId)
  {
    var r := NoMappingPrefix + connId + ".";
    assert r[..|NoMappingPrefix|] == NoMappingPrefix;
    assert OccursAt(r, connId, |NoMappingPrefix|) by {
      assert r[|NoMappingPrefix|..|NoMappingPrefix| + |connId|] == connId;
    }
    ContainsAt(r, connId, |NoMappingPrefix|);
    r
  }

  /** `get_automatic_profile_mapping`: the first registered mapping that
      claims the stored connection, built with the normalised arguments. */
  function Resolve(store: map<string, Connection>, connId: string, profileArgs: Option<ProfileArgs>,
                   crypto: Crypto, others: ClaimOracle): (r: Result<ProfileMapping, ResolveError>)
    ensures connId !in store ==> r == Failure(ConnectionNotFound(connId))
    ensures r.Success? ==> r.value.connId == connId && r.value.profileArgs == NormalizeArgs(profileArgs)
    ensures r.Success? ==>
      connId in store && Claims(r.value.variant, store[connId], NormalizeArgs(profileArgs), crypto, others)
    ensures r.Success? ==> forall j :: 0 <= j < Rank(r.value.variant) ==>
      !Claims(ProfileMappings[j], store[connId], NormalizeArgs(profileArgs), crypto, others)
    ensures connId in store ==>
      (r.Failure? <==> forall j :: 0 <= j < |ProfileMappings| ==>
        !Claims(ProfileMappings[j], store[connId], NormalizeArgs(profileArgs), crypto, others))
    ensures connId in store && r.Failure? ==> r.error == NoProfileMapping(NoMappingMessage(connId))
  {
    var args := NormalizeArgs(profileArgs);
    if connId !in store then Failure(ConnectionNotFound(connId))
    else
      var conn := store[connId];
      match FirstClaim(ProfileMappings, v => Claims(v, conn, args, crypto, others))
      case Some(i) =>
        Success(ProfileMapping(ProfileMappings[i], connId, args))
      case None => Failure(NoProfileMapping(NoMappingMessage(connId)))
  }

  /** Resolution stops at the first claimant: the mappings registered after
      it are never asked, so changing their answers changes nothing. */
  lemma LaterMappingsNotConsulted(store: map<string, Connection>, connId: string, profileArgs: Option<ProfileArgs>,
                                  crypto: Crypto, o1: ClaimOracle, o2: ClaimOracle)
    requires Resolve(store, connId, profileArgs, crypto, o1).Success?
    requires forall j :: 0 <= j <= Rank(Resolve(store, connId, profileArgs, crypto, o1).value.variant) ==>
      o1(ProfileMappings[j], store[connId], NormalizeArgs(profileArgs)) ==
      o2(ProfileMappings[j], store[connId], NormalizeArgs(profileArgs))
    ensures Resolve(store, connId, profileArgs, crypto, o2) == Resolve(store, connId, profileArgs, crypto, o1)
  {
    var r1 := Resolve(store, connId, profileArgs, crypto, o1);
    var args := NormalizeArgs(profileArgs);
    var conn := store[connId];
    var n := Rank(r1.value.variant);
    forall j | 0 <= j <= n
      ensures Claims(ProfileMappings[j], conn, args, crypto, o1) == Claims(ProfileMappings[j], conn, args, crypto, o2)
    {
    }
    var r2 := Resolve(store, connId, profileArgs, crypto, o2);
    assert r2.Success?;
    assert Rank(r2.value.variant) == n;
  }

  /** Once some mapping claims the connection, resolution succeeds with that
      mapping or one registered before it. */
  lemma ClaimantShadowsLater(store: map<string, Connection>, connId: string, profileArgs: Option<ProfileArgs>,
                             crypto: Crypto, others: ClaimOracle, v: Variant)
    requires connId in store
    requires Claims(v, store[connId], NormalizeArgs(profileArgs), crypto, others)
    ensures Resolve(store, connId, profileArgs, crypto, others).Success?
    ensures Rank(Resolve(store, connId, profileArgs, crypto, others).value.variant) <= Rank(v)
  {
    var conn, args := store[connId], NormalizeArgs(profileArgs);
    var claim := v => Claims(v, conn, args, crypto, others);
    assert claim(ProfileMappings[Rank(v)]);
    FirstClaimAtMost(ProfileMappings, claim, Rank(v));
    var i := FirstClaim(ProfileMappings, claim).value;
    assert Resolve(store, connId, profileArgs, crypto, others) == Success(ProfileMapping(ProfileMappings[i], connId, args));
    assert Rank(ProfileMappings[i]) == i;
  }

  /** A connection the encrypted-key-content mapping claims never reaches
      the user/password mapping registered after it. */
  lemma ContentClaimShadowsUserPassword(store: map<string, Connection>, connId: string, profileArgs: Option<ProfileArgs>,
                                        crypto: Crypto, others: ClaimOracle)
    requires connId in store
    requires CanClaim(store[connId], NormalizeArgs(profileArgs), crypto)
    ensures Resolve(store, connId, profileArgs, crypto, others).Success?
    ensures Rank(Resolve(store, connId, profileArgs, crypto, others).value.variant) <= Rank(SnowflakeEncryptedPrivateKeyContentPem)
    ensures Resolve(store, connId, profileArgs, crypto, others).value.variant != SnowflakeUserPassword
  {
    var conn, args := store[connId], NormalizeArgs(profileArgs);
    var claim := v => Claims(v, conn, args, crypto, others);
    var k := Rank(SnowflakeEncryptedPrivateKeyContentPem);
    assert claim(ProfileMappings[k]);
    FirstClaimAtMost(ProfileMappings, claim, k);
    var i := FirstClaim(ProfileMappings, claim).value;
    assert Resolve(store, connId, profileArgs, crypto, others) == Success(ProfileMapping(ProfileMappings[i], connId, args));
    RegisteredBeforeUserPassword(i);
  }

  /** The entries up to the encrypted-key-content mapping sit at their rank
      and do not include the user/password mapping. */
  lemma RegisteredBeforeUserPassword(i: int)
    requires 0 <= i <= Rank(SnowflakeEncryptedPrivateKeyContentPem)
    ensures Rank(ProfileMappings[i]) == i
    ensures ProfileMappings[i] != SnowflakeUserPassword
  {
    assert Rank(SnowflakeUserPassword) == 8;
  }

  /** When the other mappings check the connection type first, a connection
      the encrypted-key-content mapping claims resolves to exactly that mapping. */
  lemma ContentMappingSelected(store: map<string, Connection>, connId: string, profileArgs: Option<ProfileArgs>,
                               crypto: Crypto, others: ClaimOracle)
    requires TypeGuarded(others)
    requires connId in store
    requires CanClaim(store[connId], NormalizeArgs(profileArgs), crypto)
    ensures Resolve(store, connId, profileArgs, crypto, others) ==
      Success(ProfileMapping(SnowflakeEncryptedPrivateKeyContentPem, connId, NormalizeArgs(profileArgs)))
  {
    var conn, args := store[connId], NormalizeArgs(profileArgs);
    var claim := v => Claims(v, conn, args, crypto, others);
    var k := Rank(SnowflakeEncryptedPrivateKeyContentPem);
    forall j | 0 <= j < k ensures !claim(ProfileMappings[j]) {
      assert !IsSnowflake(ProfileMappings[j]);
    }
    assert claim(ProfileMappings[k]);
    FirstClaimAt(ProfileMappings, claim, k);
  }
}

=== FILE: pydict.dfy ===
/** A Python `dict` with string keys, as an insertion-ordered list of
    entries.  The order matters to the Snowflake legacy-key rewrite: a dict
    comprehension visits the entries in insertion order, so when two keys
    collide after rewriting, the later entry's value is the one kept. */
module PyDict {
  import opened Wrappers

  type Dict<V> = seq<(string, V)>

  /** No key appears twice, as in every Python dict. */
  ghost predicate KeysDistinct<V>(d: Dict<V>) {
    forall i, j :: 0 <= i < j < |d| ==> d[i].0 != d[j].0
  }

  /** `k` is the key of some entry of `d`. */
  ghost predicate HasKey<V>(d: Dict<V>, k: string) {
    exists i :: 0 <= i < |d| && d[i].0 == k
  }

  /** `d.get(k)`: the value stored under `k`, or `None` when `k` is absent. */
  function Get<V>(d: Dict<V>, k: string): (r: Option<V>)
    ensures r.None? <==> !HasKey(d, k)
  {
    if |d| == 0 then None
    else if d[0].0 == k then Some(d[0].1)
    else
      var r := Get(d[1..], k);
      assert HasKey(d, k) ==> HasKey(d[1..], k) by {
        if HasKey(d, k) {
          var i :| 0 <= i < |d| && d[i].0 == k;
          assert d[1..][i - 1].0 == k;
        }
      }
      assert HasKey(d[1..], k) ==> HasKey(d, k) by {
        if HasKey(d[1..], k) {
          var i :| 0 <= i < |d[1..]| && d[1..][i].0 == k;
          assert d[i + 1].0 == k;
        }
      }
      r
  }

  /** In a dict whose keys are distinct, the entry holding `k` is the one `Get` returns. */
  lemma {:induction false} GetAt<V>(d: Dict<V>, i: int)
    requires KeysDistinct(d)
    requires 0 <= i < |d|
    ensures Get(d, d[i].0) == Some(d[i].1)
  {
    if i > 0 {
      assert d[0].0 != d[i].0;
      assert d[1..][i - 1] == d[i];
      GetAt(d[1..], i - 1);
    }
  }

  /** `d[k] = v`: an existing key keeps its position and takes the new value;
      a new key is appended at the end. */
  function Set<V>(d: Dict<V>, k: string, v: V): (r: Dict<V>)
    ensures Get(r, k) == Some(v)
    ensures forall k' :: k' != k ==> Get(r, k') == Get(d, k')
    ensures KeysDistinct(d) ==> KeysDistinct(r)
    ensures forall k' :: HasKey(r, k') <==> HasKey(d, k') || k' == k
  {
    if |d| == 0 then [(k, v)]
    else if d[0].0 == k then
      var r := [(k, v)] + d[1..];
      assert forall k' :: k' != k ==> Get(r, k') == Get(d, k') by {
        forall k' | k' != k ensures Get(r, k') == Get(d, k') {
          assert r[1..] == d[1..];
        }
      }
      assert forall i :: 0 <= i < |r| ==> r[i].0 == d[i].0;
      r
    else
      var rest := Set(d[1..], k, v);
      assert d == [d[0]] + d[1..];
      ConsKeys(d[0], d[1..]);
      ConsKeys(d[0], rest);
      [d[0]] + rest
  }

  /** The keys of a dict with one entry in front: that entry's key and the rest's;
      they stay distinct exactly when the rest's are and the front key is new. */
  lemma ConsKeys<V>(e: (string, V), t: Dict<V>)
    ensures forall k' :: HasKey([e] + t, k') <==> HasKey(t, k') || k' == e.0
    ensures KeysDistinct([e] + t) <==> KeysDistinct(t) && !HasKey(t, e.0)
  {
    var r := [e] + t;
    forall k' ensures HasKey(r, k') <==> HasKey(t, k') || k' == e.0 {
      if HasKey(r, k') && k' != e.0 {
        var i :| 0 <= i < |r| && r[i].0 == k';
        assert t[i - 1].0 == k';
      }
      if HasKey(t, k') {
        var i :| 0 <= i < |t| && t[i].0 == k';
        assert r[i + 1].0 == k';
      }
      if k' == e.0 {
        assert r[0].0 == k';
      }
    }
    if KeysDistinct(r) {
      forall i, j | 0 <= i < j < |t| ensures t[i].0 != t[j].0 {
        assert t[i] == r[i + 1] && t[j] == r[j + 1];
      }
      forall i | 0 <= i < |t| ensures t[i].0 != e.0 {
        assert t[i] == r[i + 1] && e == r[0];
      }
    }
    if KeysDistinct(t) && !HasKey(t, e.0) {
      forall i, j | 0 <= i < j < |r| ensures r[i].0 != r[j].0 {
        if i == 0 {
          assert r[j].0 == t[j - 1].0;
        } else {
          assert r[i] == t[i - 1] && r[j] == t[j - 1];
        }
      }
    }
  }
}

=== FILE: scenarios.dfy ===
/** Concrete connections from the repository's tests, and what the model
    says about them.  The crypto library is left abstract, so each scenario
    names the one fact about it that the expected outcome depends on. */
module Scenarios {
  import opened Wrappers
  import opened Strings
  import opened PyDict
  import opened ProfileBase
  import opened SnowflakeKeyContent
  import opened SnowflakeProperties
  import opened Profiles

  const FixtureId: string := "my_snowflake_pk_connection"

  /** The current-format connection: every required field, plus a region. */
  const FixtureExtra: Dict<string> := [
    ("account", "my_account"),
    ("region", "my_region"),
    ("database", "my_database"),
    ("warehouse", "my_warehouse"),
    ("private_key_content", "my_content")
  ]

  const Fixture: Connection := Connection(
    FixtureId, Some("snowflake"), Some("my_user"), Some("secret"), Some("my_schema"), FixtureExtra)

  /** The old-format test connection's fields, written under plain names;
      the connection itself carries them under the legacy names. */
  const OldFormatCurrent: Dict<string> := [
    ("account", "my_account"),
    ("database", "my_database"),
    ("warehouse", "my_warehouse"),
    ("private_key_content", "my_content")
  ]

  const OldFormat: Connection := Connection(
    "my_snowflake_connection", Some("snowflake"), Some("my_user"), Some("secret"), Some("my_schema"),
    LegacyOf(OldFormatCurrent))

  /** The fixture's extra bag is in the current format and is read as it is. */
  lemma FixtureExtraLookups()
    ensures Extra(Fixture) == FixtureExtra
    ensures Get(Extra(Fixture), "account") == Some("my_account")
    ensures Get(Extra(Fixture), "region") == Some("my_region")
    ensures Get(Extra(Fixture), "database") == Some("my_database")
    ensures Get(Extra(Fixture), "warehouse") == Some("my_warehouse")
    ensures Get(Extra(Fixture), "private_key_content") == Some("my_content")
    ensures Get(Extra(Fixture), "role") == None
  {
    assert !LegacyFormat(FixtureExtra);
  }

  /** Resolving the fixture's id with no profile arguments picks the
      encrypted-key-content mapping, built with empty arguments. */
  lemma FixtureSelected(crypto: Crypto, others: ClaimOracle)
    requires EncodesNonEmpty(crypto)
    requires TypeGuarded(others)
    ensures Resolve(map[FixtureId := Fixture], FixtureId, None, crypto, others) ==
      Success(ProfileMapping(SnowflakeEncryptedPrivateKeyContentPem, FixtureId, map[]))
  {
    FixtureExtraLookups();
    ClaimWhenAllPresent(Fixture, crypto);
    ContentMappingSelected(map[FixtureId := Fixture], FixtureId, None, crypto, others);
  }

  const PrivateKeyVar: string := "COSMOS_CONN_SNOWFLAKE_PRIVATE_KEY"
  const PassphraseVar: string := "COSMOS_CONN_SNOWFLAKE_PRIVATE_KEY_PASSPHRASE"

  /** An environment variable name assembled from its upper-cased parts. */
  lemma EnvVarNameParts(connType: string, field: string)
    ensures EnvVarName(connType, field) == EnvVarPrefix + Upper(connType) + "_" + Upper(field)
  {
  }

  lemma UpperType()
    ensures Upper(AirflowConnectionType) == "SNOWFLAKE"
  {
  }

  lemma UpperPrivateKey()
    ensures Upper("private_key") == "PRIVATE_KEY"
  {
  }

  lemma UpperPassphrase()
    ensures Upper("private_key_passphrase") == "PRIVATE_KEY_PASSPHRASE"
  {
  }

  /** The private key's environment variable name, spelled out. */
  lemma PrivateKeyVarName()
    ensures EnvVarName(AirflowConnectionType, "private_key") == PrivateKeyVar
  {
    EnvVarNameParts(AirflowConnectionType, "private_key");
    UpperType();
    UpperPrivateKey();
    PrivateKeyLiteral();
  }

  lemma PrivateKeyLiteral()
    ensures EnvVarPrefix + "SNOWFLAKE" + "_" + "PRIVATE_KEY" == PrivateKeyVar
  {
  }

  /** The passphrase's environment variable name, spelled out. */
  lemma PassphraseVarName()
    ensures EnvVarName(AirflowConnectionType, "private_key_passphrase") == PassphraseVar
  {
    EnvVarNameParts(AirflowConnectionType, "private_key_passphrase");
    UpperType();
    UpperPassphrase();
    PassphraseLiteral();
  }

  lemma PassphraseLiteral()
    ensures EnvVarPrefix + "SNOWFLAKE" + "_" + "PRIVATE_KEY_PASSPHRASE" == PassphraseVar
  {
  }

  /** The two secret fields' environment variable names, spelled out. */
  lemma SecretVarNames()
    ensures EnvVarName(AirflowConnectionType, "private_key") == PrivateKeyVar
    ensures EnvVarName(AirflowConnectionType, "private_key_passphrase") == PassphraseVar
  {
    PrivateKeyVarName();
    PassphraseVarName();
  }

  /** The fixture's region does not already occur in its account. */
  lemma RegionNotInAccount()
    ensures !Contains("my_account", "my_region")
  {
    var a := "my_account";
    assert a[1..] == "y_account" && a[1..][1..] == "_account";
    assert !IsPrefix("my_region", a) by { assert a[3] != "my_region"[3]; }
    assert !IsPrefix("my_region", a[1..]) by { assert a[1] != "my_region"[0]; }
    assert |a[1..][1..]| < |"my_region"|;
  }

  /** The fixture's profile account is `<account>.<region>`. */
  lemma FixtureAccount(crypto: Crypto)
    ensures "account" in Profile(Fixture, map[], crypto)
    ensures Profile(Fixture, map[], crypto)["account"] == "my_account" + "." + "my_region"
  {
    FixtureExtraLookups();
    RegionNotInAccount();
    AccountGetsRegion(Fixture, map[], crypto, "my_account", "my_region");
  }

  /** The profile the repository's test expects for the fixture: no role,
      the account joined with its region, and both secrets as placeholders. */
  const FixtureProfile: map<string, string> := map[
    "type" := "snowflake",
    "user" := "my_user",
    "private_key" := Placeholder(PrivateKeyVar),
    "private_key_passphrase" := Placeholder(PassphraseVar),
    "schema" := "my_schema",
    "account" := "my_account" + "." + "my_region",
    "database" := "my_database",
    "warehouse" := "my_warehouse"
  ]

  /** Without overrides, a mapped non-secret field resolves to its `get_dbt_value`. */
  lemma NoArgsResolved(conn: Connection, crypto: Crypto, f: string)
    requires f in ParamMapping && f !in SecretFields
    ensures ResolvedValue(conn, map[], crypto, f) == DbtValue(conn, map[], crypto, f)
    ensures Truthy(RawField(conn, f)) ==> DbtValue(conn, map[], crypto, f) == Some(Transform(conn, crypto, f, RawField(conn, f).value))
    ensures !Truthy(RawField(conn, f)) ==> DbtValue(conn, map[], crypto, f) == None
  {
    assert ArgValue(map[], f) == None;
  }

  lemma FixtureSecretsResolved(crypto: Crypto)
    ensures ResolvedValue(Fixture, map[], crypto, "private_key") == Some(Placeholder(PrivateKeyVar))
    ensures ResolvedValue(Fixture, map[], crypto, "private_key_passphrase") == Some(Placeholder(PassphraseVar))
  {
    SecretVarNames();
  }

  lemma FixtureAccountResolved(crypto: Crypto)
    ensures ResolvedValue(Fixture, map[], crypto, "account") == Some("my_account" + "." + "my_region")
  {
    FixtureAccount(crypto);
  }

  lemma FixtureUserResolved(crypto: Crypto)
    ensures ResolvedValue(Fixture, map[], crypto, "user") == Some("my_user")
  {
    NoArgsResolved(Fixture, crypto, "user");
    RawUser(Fixture);
  }

  lemma FixtureSchemaResolved(crypto: Crypto)
    ensures ResolvedValue(Fixture, map[], crypto, "schema") == Some("my_schema")
  {
    NoArgsResolved(Fixture, crypto, "schema");
    RawSchema(Fixture);
  }

  lemma FixtureDatabaseResolved(crypto: Crypto)
    ensures ResolvedValue(Fixture, map[], crypto, "database") == Some("my_database")
  {
    NoArgsResolved(Fixture, crypto, "database");
    RawDatabase(Fixture);
    FixtureExtraLookups();
  }

  lemma FixtureWarehouseResolved(crypto: Crypto)
    ensures ResolvedValue(Fixture, map[], crypto, "warehouse") == Some("my_warehouse")
  {
    NoArgsResolved(Fixture, crypto, "warehouse");
    RawWarehouse(Fixture);
    FixtureExtraLookups();
  }

  /** The fixture has no role, so the profile has none either. */
  lemma FixtureRoleResolved(crypto: Crypto)
    ensures ResolvedValue(Fixture, map[], crypto, "role") == None
  {
    NoArgsResolved(Fixture, crypto, "role");
    RawRole(Fixture);
    FixtureExtraLookups();
  }

  /** A key the connection type does not map resolves to nothing. */
  lemma UnmappedResolved(conn: Connection, crypto: Crypto, k: string)
    requires k != "type" && k !in ParamMapping
    ensures ResolvedValue(conn, map[], crypto, k) == None
  {
  }

  /** Each key resolves to what the expected profile holds under it. */
  lemma FixtureResolved(crypto: Crypto, k: string)
    ensures ResolvedValue(Fixture, map[], crypto, k) == (if k in FixtureProfile then Some(FixtureProfile[k]) else None)
  {
    if k == "private_key" || k == "private_key_passphrase" {
      FixtureSecretsResolved(crypto);
    } else if k == "account" {
      FixtureAccountResolved(crypto);
    } else if k == "user" {
      FixtureUserResolved(crypto);
    } else if k == "schema" {
      FixtureSchemaResolved(crypto);
    } else if k == "database" {
      FixtureDatabaseResolved(crypto);
    } else if k == "warehouse" {
      FixtureWarehouseResolved(crypto);
    } else if k == "role" {
      FixtureRoleResolved(crypto);
    } else if k != "type" {
      UnmappedResolved(Fixture, crypto, k);
    }
  }

  /** Without overrides the fixture's profile is exactly the expected eight
      entries, whatever the crypto library does. */
  lemma FixtureProfileIs(crypto: Crypto)
    ensures Profile(Fixture, map[], crypto) == FixtureProfile
  {
    forall k ensures ResolvedValue(Fixture, map[], crypto, k) == (if k in FixtureProfile then Some(FixtureProfile[k]) else None) {
      FixtureResolved(crypto, k);
    }
    ProfileIs(Fixture, map[], crypto, FixtureProfile);
  }

  /** When the crypto library cannot parse `my_content` as a PEM key, the
      fixture exports the key text and the password unchanged. */
  lemma FixtureEnvVars(crypto: Crypto)
    requires crypto.loadPem("my_content", Some("secret")).None?
    ensures EnvVars(Fixture, map[], crypto) == map[PrivateKeyVar := "my_content", PassphraseVar := "secret"]
  {
    FixtureExtraLookups();
    UnparsedKeyPassesThrough(Fixture, crypto, "my_content", "secret");
    SecretVarNames();
  }

  const DatabaseOverride: ProfileArgs := map["database" := Some("my_db_override")]

  /** Resolving with `profile_args={"database": "my_db_override"}` still picks
      the encrypted-key-content mapping and keeps those arguments. */
  lemma FixtureOverrideSelected(crypto: Crypto, others: ClaimOracle)
    requires EncodesNonEmpty(crypto)
    requires TypeGuarded(others)
    ensures Resolve(map[FixtureId := Fixture], FixtureId, Some(DatabaseOverride), crypto, others) ==
      Success(ProfileMapping(SnowflakeEncryptedPrivateKeyContentPem, FixtureId, DatabaseOverride))
  {
    FixtureOverrideClaimed(crypto);
    ContentMappingSelected(map[FixtureId := Fixture], FixtureId, Some(DatabaseOverride), crypto, others);
  }

  /** With the override, the profile differs from the plain one only in its database. */
  lemma FixtureOverrideProfile(crypto: Crypto)
    ensures Profile(Fixture, DatabaseOverride, crypto) == Profile(Fixture, map[], crypto)["database" := "my_db_override"]
  {
    var empty: ProfileArgs := map[];
    assert DatabaseOverride == empty["database" := Some("my_db_override")];
    OverrideReplacesEntry(Fixture, empty, crypto, "database", "my_db_override");
  }

  /** The fixture is still claimed with the database overridden. */
  lemma FixtureOverrideClaimed(crypto: Crypto)
    requires EncodesNonEmpty(crypto)
    ensures CanClaim(Fixture, DatabaseOverride, crypto)
  {
    var empty: ProfileArgs := map[];
    FixtureClaimed(crypto);
    OverrideKeepsClaim(Fixture, empty, crypto, "database", "my_db_override");
    assert DatabaseOverride == empty["database" := Some("my_db_override")];
  }

  /** The test connection is claimed without overrides. */
  lemma FixtureClaimed(crypto: Crypto)
    requires EncodesNonEmpty(crypto)
    ensures CanClaim(Fixture, map[], crypto)
  {
    FixtureExtraLookups();
    ClaimWhenAllPresent(Fixture, crypto);
  }

  /** The old-format connection's keys are the test's `extra__snowflake__` keys. */
  lemma OldFormatKeys()
    ensures OldFormat.extra[0].0 == "extra__snowflake__account"
    ensures OldFormat.extra[1].0 == "extra__snowflake__database"
    ensures OldFormat.extra[2].0 == "extra__snowflake__warehouse"
    ensures OldFormat.extra[3].0 == "extra__snowflake__private_key_content"
  {
  }

  /** None of the plain names contains the legacy namespace. */
  lemma OldFormatNoNamespace()
    ensures forall i :: 0 <= i < |OldFormatCurrent| ==> !Contains(OldFormatCurrent[i].0, LegacyPrefix)
  {
    forall i | 0 <= i < |OldFormatCurrent| ensures !Contains(OldFormatCurrent[i].0, LegacyPrefix) {
      var k := OldFormatCurrent[i].0;
      assert forall j :: 0 <= j <= |k| - |LegacyPrefix| ==> k[j] != LegacyPrefix[0];
      ContainsNoStart(k, LegacyPrefix);
    }
  }

  /** The plain names carry no namespace, are distinct, and include a truthy account. */
  lemma OldFormatCurrentPlain()
    ensures PlainExtra(OldFormatCurrent)
  {
    var c := OldFormatCurrent;
    forall i, j | 0 <= i < j < |c| ensures c[i].0 != c[j].0 {
      assert |c[i].0| != |c[j].0|;
    }
    OldFormatNoNamespace();
    assert Get(c, "account") == Some("my_account");
  }

  /** The old format still works: the legacy connection yields the profile,
      environment variables and claim of its current-format twin, and its
      account is read from the legacy key. */
  lemma OldFormatWorks(crypto: Crypto)
    ensures Profile(OldFormat, map[], crypto) == Profile(OldFormat.(extra := OldFormatCurrent), map[], crypto)
    ensures EnvVars(OldFormat, map[], crypto) == EnvVars(OldFormat.(extra := OldFormatCurrent), map[], crypto)
    ensures "account" in Profile(OldFormat, map[], crypto)
    ensures Profile(OldFormat, map[], crypto)["account"] == "my_account"
  {
    OldFormatCurrentPlain();
    LegacyFormatEquivalent(OldFormat, OldFormatCurrent, map[], crypto);
    var twin := OldFormat.(extra := OldFormatCurrent);
    LegacyNormalizesToCurrent(OldFormatCurrent);
    assert Get(Extra(twin), "account") == Some("my_account");
    assert Get(Extra(twin), "region") == None;
    AccountWithoutRegion(twin, map[], crypto, "my_account");
  }
}

=== FILE: snowflake_key_content.dfy ===
/** The Snowflake profile mapping for connections that carry an encrypted
    private key's PEM text in their extra bag
    (`SnowflakeEncryptedPrivateKeyContentPemProfileMapping`). */
module SnowflakeKeyContent {
  import opened Wrappers
  import opened Strings
  import opened PyDict
  import opened ProfileBase

  const AirflowConnectionType: string := "snowflake"
  const DbtProfileType: string := "snowflake"

  /** The fields that must all be truthy for this mapping to claim a connection. */
  const RequiredFields: seq<string> :=
    ["account", "user", "database", "warehouse", "schema", "private_key", "private_key_passphrase"]

  /** The fields that reach dbt only through environment variables. */
  const SecretFields: seq<string> := ["private_key", "private_key_passphrase"]

  /** Where each profile field is read from in the Airflow connection. */
  const ParamMapping: map<string, string> := map[
    "account" := "extra.account",
    "user" := "login",
    "database" := "extra.database",
    "warehouse" := "extra.warehouse",
    "schema" := "schema",
    "role" := "extra.role",
    "private_key" := "extra.private_key_content",
    "private_key_passphrase" := "password"
  ]

  // ---------------------------------------------------------------------
  // Legacy extra keys
  // ---------------------------------------------------------------------

  /** The namespace older Airflow versions put in front of every Snowflake extra key. */
  const LegacyPrefix: string := "extra__snowflake__"
  const LegacyAccountKey: string := "extra__snowflake__account"

  /** `key.replace("extra__snowflake__", "")`. */
  function StripLegacy(key: string): string {
    RemoveAll(key, LegacyPrefix)
  }

  /** The dict comprehension `{key.replace(...): value for key, value in d.items()}`:
      entries are inserted in order, so a later entry overwrites an earlier
      one whose key rewrites to the same name. */
  function RewriteKeys(d: Dict<string>): (r: Dict<string>)
    ensures KeysDistinct(r)
    decreases |d|
  {
    if |d| == 0 then []
    else
      var last := d[|d| - 1];
      Set(RewriteKeys(d[..|d| - 1]), StripLegacy(last.0), last.1)
  }

  /** Entry `i` of `d` is the last one whose key rewrites to `k`. */
  ghost predicate LastRewrittenAt(d: Dict<string>, k: string, i: int) {
    && 0 <= i < |d|
    && StripLegacy(d[i].0) == k
    && forall j :: i < j < |d| ==> StripLegacy(d[j].0) != k
  }

  /** After the rewrite, key `k` holds the value of the last entry whose key rewrites to `k`. */
  lemma {:induction false} RewriteKeysLaterWins(d: Dict<string>, k: string, i: int)
    requires LastRewrittenAt(d, k, i)
    ensures Get(RewriteKeys(d), k) == Some(d[i].1)
    decreases |d|
  {
    var p := d[..|d| - 1];
    if i < |d| - 1 {
      assert StripLegacy(d[|d| - 1].0) != k;
      assert LastRewrittenAt(p, k, i) by {
        forall j | i < j < |p| ensures StripLegacy(p[j].0) != k {
          assert p[j] == d[j];
        }
      }
      RewriteKeysLaterWins(p, k, i);
    }
  }

  /** A name no key rewrites to is absent after the rewrite. */
  lemma {:induction false} RewriteKeysAbsent(d: Dict<string>, k: string)
    requires forall i :: 0 <= i < |d| ==> StripLegacy(d[i].0) != k
    ensures Get(RewriteKeys(d), k) == None
    decreases |d|
  {
    if |d| > 0 {
      var p := d[..|d| - 1];
      assert forall i :: 0 <= i < |p| ==> p[i] == d[i];
      RewriteKeysAbsent(p, k);
    }
  }

  /** The extra bag uses the legacy key names: `extra__snowflake__account` is truthy. */
  predicate LegacyFormat(extra: Dict<string>) {
    Truthy(Get(extra, LegacyAccountKey))
  }

  /** The normalised extra bag the `conn` property hands to every lookup:
      rewritten when it is in the legacy format, untouched otherwise. */
  function NormalizeExtra(extra: Dict<string>): (r: Dict<string>)
    ensures !LegacyFormat(extra) ==> r == extra
    ensures LegacyFormat(extra) ==>
      forall k, i :: LastRewrittenAt(extra, k, i) ==> Get(r, k) == Some(extra[i].1)
    ensures LegacyFormat(extra) ==>
      forall k :: (forall i :: 0 <= i < |extra| ==> StripLegacy(extra[i].0) != k) ==> Get(r, k) == None
    ensures KeysDistinct(extra) ==> KeysDistinct(r)
  {
    if LegacyFormat(extra) then
      var r := RewriteKeys(extra);
      assert forall k, i :: LastRewrittenAt(extra, k, i) ==> Get(r, k) == Some(extra[i].1) by {
        forall k, i | LastRewrittenAt(extra, k, i) ensures Get(r, k) == Some(extra[i].1) {
          RewriteKeysLaterWins(extra, k, i);
        }
      }
      assert forall k :: (forall i :: 0 <= i < |extra| ==> StripLegacy(extra[i].0) != k) ==> Get(r, k) == None by {
        forall k | forall i :: 0 <= i < |extra| ==> StripLegacy(extra[i].0) != k
          ensures Get(r, k) == None
        {
          RewriteKeysAbsent(extra, k);
        }
      }
      r
    else extra
  }

  /** The connection's extra bag as every lookup of this mapping sees it. */
  function Extra(conn: Connection): Dict<string> {
    NormalizeExtra(conn.extra)
  }

  // ---------------------------------------------------------------------
  // Transforms
  // ---------------------------------------------------------------------

  /** `transform_account`: the account becomes `<account>.<region>` when a
      truthy region is not already part of it, and stays as it is otherwise. */
  function TransformAccount(account: string, region: Option<string>): (r: string)
    ensures IsPrefix(account, r)
    ensures Truthy(region) ==> Contains(r, region.value)
    ensures r == account <==> !Truthy(region) || Contains(account, region.value)
    ensures r != account ==> r == account + "." + region.value
  {
    if Truthy(region) && !Contains(account, region.value) then
      var r := account + "." + region.value;
      assert r[..|account|] == account;
      ContainsSuffix(account + ".", region.value);
      r
    else account
  }

  /** A parsed private key, represented by its unencrypted DER bytes. */
  type KeyBytes = seq<bv8>

  /** The key-serialisation library, of which the model knows only the
      signatures: PEM parsing with an optional passphrase (`None` when the
      text is not a PEM key that passphrase opens), re-encryption to
      base64-encoded PKCS#8 DER under a passphrase, and the inverse parse
      of that encoding. */
  datatype Crypto = Crypto(
    loadPem: (string, Option<string>) -> Option<KeyBytes>,
    derBase64: (KeyBytes, Option<string>) -> string,
    loadDerBase64: (string, Option<string>) -> Option<KeyBytes>)

  /** `transform_private_key`: parse the key as PEM, opening it with the
      connection password (`None` when there is no password); when that
      fails the text is returned untouched, otherwise the parsed key is
      re-encrypted under the same passphrase and base64-encoded. */
  function TransformPrivateKey(key: string, password: Option<string>, crypto: Crypto): (r: string)
    ensures crypto.loadPem(key, password).None? ==> r == key
    ensures crypto.loadPem(key, password).Some? ==>
      r == crypto.derBase64(crypto.loadPem(key, password).value, password)
  {
    match crypto.loadPem(key, password)
    case None => key
    case Some(parsed) => crypto.derBase64(parsed, password)
  }

  /** The library's round-trip law: what it encodes under a passphrase it
      parses back under the same passphrase. */
  ghost predicate RoundTrips(crypto: Crypto) {
    forall k, p :: crypto.loadDerBase64(crypto.derBase64(k, p), p) == Some(k)
  }

  /** The library never produces an empty base64 encoding. */
  ghost predicate EncodesNonEmpty(crypto: Crypto) {
    forall k, p :: crypto.derBase64(k, p) != ""
  }

  /** The transform that applies to a field read from the connection: the
      account keeps its text as a prefix and gains the region's suffix at
      most; a key that does not parse is kept, one that parses is
      re-encoded under the connection password; every other field is kept. */
  function Transform(conn: Connection, crypto: Crypto, field: string, value: string): (r: string)
    ensures field == "account" ==> IsPrefix(value, r) && (r == value || Truthy(Get(Extra(conn), "region")))
    ensures field == "private_key" && crypto.loadPem(value, conn.password).None? ==> r == value
    ensures field == "private_key" && crypto.loadPem(value, conn.password).Some? ==>
      r == crypto.derBase64(crypto.loadPem(value, conn.password).value, conn.password)
    ensures field != "account" && field != "private_key" ==> r == value
  {
    if field == "account" then TransformAccount(value, Get(Extra(conn), "region"))
    else if field == "private_key" then TransformPrivateKey(value, conn.password, crypto)
    else value
  }

  // ---------------------------------------------------------------------
  // Field values, profile, environment variables, claim
  // ---------------------------------------------------------------------

  /** `profile_args.get(field)`. */
  function ArgValue(args: ProfileArgs, field: string): Option<string> {
    if field in args then args[field] else None
  }

  /** The raw value a mapped field has in the connection, before any transform. */
  function RawField(conn: Connection, field: string): (r: Option<string>)
    requires field in ParamMapping
  {
    ResolvePath(conn, Extra(conn), ParamMapping[field])
  }

  /** Each mapped field reads the attribute or extra key its path names. */
  lemma RawFields(conn: Connection)
    ensures RawField(conn, "account") == Get(Extra(conn), "account")
    ensures RawField(conn, "user") == conn.login
    ensures RawField(conn, "database") == Get(Extra(conn), "database")
    ensures RawField(conn, "warehouse") == Get(Extra(conn), "warehouse")
    ensures RawField(conn, "schema") == conn.schema
    ensures RawField(conn, "role") == Get(Extra(conn), "role")
    ensures RawField(conn, "private_key") == Get(Extra(conn), "private_key_content")
    ensures RawField(conn, "private_key_passphrase") == conn.password
  {
    RawAccount(conn);
    RawUser(conn);
    RawDatabase(conn);
    RawWarehouse(conn);
    RawSchema(conn);
    RawRole(conn);
    RawPrivateKey(conn);
    RawPrivateKeyPassphrase(conn);
  }

  lemma RawAccount(conn: Connection)
    ensures RawField(conn, "account") == Get(Extra(conn), "account")
  {
    assert ParamMapping["account"] == "extra.account";
    assert IsPrefix(ExtraPrefix, "extra.account");
    assert "extra.account"[|ExtraPrefix|..] == "account";
  }

  lemma RawUser(conn: Connection)
    ensures RawField(conn, "user") == conn.login
  {
    assert ParamMapping["user"] == "login";
  }

  lemma RawDatabase(conn: Connection)
    ensures RawField(conn, "database") == Get(Extra(conn), "database")
  {
    assert ParamMapping["database"] == "extra.database";
    assert IsPrefix(ExtraPrefix, "extra.database");
    assert "extra.database"[|ExtraPrefix|..] == "database";
  }

  lemma RawWarehouse(conn: Connection)
    ensures RawField(conn, "warehouse") == Get(Extra(conn), "warehouse")
  {
    assert ParamMapping["warehouse"] == "extra.warehouse";
    assert IsPrefix(ExtraPrefix, "extra.warehouse");
    assert "extra.warehouse"[|ExtraPrefix|..] == "warehouse";
  }

  lemma RawSchema(conn: Connection)
    ensures RawField(conn, "schema") == conn.schema
  {
    assert ParamMapping["schema"] == "schema";
  }

  lemma RawRole(conn: Connection)
    ensures RawField(conn, "role") == Get(Extra(conn), "role")
  {
    assert ParamMapping["role"] == "extra.role";
    assert IsPrefix(ExtraPrefix, "extra.role");
    assert "extra.role"[|ExtraPrefix|..] == "role";
  }

  lemma RawPrivateKey(conn: Connection)
    ensures RawField(conn, "private_key") == Get(Extra(conn), "private_key_content")
  {
    assert ParamMapping["private_key"] == "extra.private_key_content";
    assert IsPrefix(ExtraPrefix, "extra.private_key_content");
    assert "extra.private_key_content"[|ExtraPrefix|..] == "private_key_content";
  }

  lemma RawPrivateKeyPassphrase(conn: Connection)
    ensures RawField(conn, "private_key_passphrase") == conn.password
  {
    assert ParamMapping["private_key_passphrase"] == "password";
  }

  /** `get_dbt_value`: a truthy override from `profile_args` wins outright;
      otherwise a truthy value read from the connection, passed through the
      field's transform; otherwise `None`. */
  function DbtValue(conn: Connection, args: ProfileArgs, crypto: Crypto, field: string): (r: Option<string>)
    ensures Truthy(ArgValue(args, field)) ==> r == ArgValue(args, field)
    ensures !Truthy(ArgValue(args, field)) && field !in ParamMapping ==> r.None?
    ensures !Truthy(ArgValue(args, field)) && field in ParamMapping ==>
      (r.Some? <==> Truthy(RawField(conn, field)))
    ensures !Truthy(ArgValue(args, field)) && field in ParamMapping && Truthy(RawField(conn, field)) ==>
      r == Some(Transform(conn, crypto, field, RawField(conn, field).value))
  {
    if Truthy(ArgValue(args, field)) then ArgValue(args, field)
    else if field !in ParamMapping then None
    else
      var raw := RawField(conn, field);
      if Truthy(raw) then Some(Transform(conn, crypto, field, raw.value)) else None
  }

  /** `mapped_params`: the profile type plus every mapped field's value. */
  function MappedParams(conn: Connection, args: ProfileArgs, crypto: Crypto): (r: map<string, Option<string>>)
    ensures r.Keys == {"type"} + ParamMapping.Keys
    ensures r["type"] == Some(DbtProfileType)
    ensures forall f :: f in ParamMapping ==> r[f] == DbtValue(conn, args, crypto, f)
  {
    assert "type" !in ParamMapping;
    map["type" := Some(DbtProfileType)] + map f | f in ParamMapping :: DbtValue(conn, args, crypto, f)
  }

  /** The placeholders that stand in the profile for the two secret fields. */
  function SecretPlaceholders(): (r: map<string, Option<string>>)
    ensures forall k :: k in r <==> k in SecretFields
    ensures forall k :: k in r ==> r[k] == Some(EnvVarFormat(AirflowConnectionType, k))
  {
    map[
      "private_key" := Some(EnvVarFormat(AirflowConnectionType, "private_key")),
      "private_key_passphrase" := Some(EnvVarFormat(AirflowConnectionType, "private_key_passphrase"))
    ]
  }

  /** What the profile holds under key `k`, field by field: a secret field
      holds its placeholder; any other key holds the user's `profile_args`
      entry when there is one, else the profile type or the field's mapped
      value; `None` means the key is absent from the profile. */
  function ResolvedValue(conn: Connection, args: ProfileArgs, crypto: Crypto, k: string): Option<string> {
    if k in SecretFields then Some(EnvVarFormat(AirflowConnectionType, k))
    else if k in args then args[k]
    else if k == "type" then Some(DbtProfileType)
    else if k in ParamMapping then DbtValue(conn, args, crypto, k)
    else None
  }

  /** The dict literal `{**mapped_params, **profile_args, <secret placeholders>}`,
      before null filtering: later sources win. */
  function ProfileVars(conn: Connection, args: ProfileArgs, crypto: Crypto): (r: map<string, Option<string>>)
    ensures forall k :: k in r ==> r[k] == ResolvedValue(conn, args, crypto, k)
    ensures forall k :: ResolvedValue(conn, args, crypto, k).Some? ==> k in r
  {
    MergeValues(conn, args, crypto);
    MergeKeys(conn, args, crypto);
    MappedParams(conn, args, crypto) + args + SecretPlaceholders()
  }

  /** Each entry of the merged dict holds the resolved value of its key. */
  lemma MergeValues(conn: Connection, args: ProfileArgs, crypto: Crypto)
    ensures var r := MappedParams(conn, args, crypto) + args + SecretPlaceholders();
      forall k :: k in r ==> r[k] == ResolvedValue(conn, args, crypto, k)
  {
    var mapped := MappedParams(conn, args, crypto);
    var secrets := SecretPlaceholders();
    var r := mapped + args + secrets;
    forall k | k in r ensures r[k] == ResolvedValue(conn, args, crypto, k) {
      if k in secrets {
        assert r[k] == secrets[k];
      } else if k in args {
        assert r[k] == args[k];
      } else {
        assert r[k] == mapped[k];
      }
    }
  }

  /** Every key that resolves to a value is present in the merged dict. */
  lemma MergeKeys(conn: Connection, args: ProfileArgs, crypto: Crypto)
    ensures forall k :: ResolvedValue(conn, args, crypto, k).Some? ==>
      k in MappedParams(conn, args, crypto) + args + SecretPlaceholders()
  {
    var r := MappedParams(conn, args, crypto) + args + SecretPlaceholders();
    forall k | ResolvedValue(conn, args, crypto, k).Some? ensures k in r {
      if k !in SecretPlaceholders() && k !in args {
        assert k == "type" || k in ParamMapping;
      }
    }
  }

  /** `profile`: mapped params, overridden by `profile_args`, overridden by
      the secret placeholders; then every `None` is dropped.  The result is
      exactly the non-`None` resolved values, so the secret fields always
      hold their placeholders and never a value from the connection. */
  function Profile(conn: Connection, args: ProfileArgs, crypto: Crypto): (r: map<string, string>)
    ensures forall k :: k in r <==> ResolvedValue(conn, args, crypto, k).Some?
    ensures forall k :: k in r ==> Some(r[k]) == ResolvedValue(conn, args, crypto, k)
    ensures forall f :: f in SecretFields ==> f in r && r[f] == EnvVarFormat(AirflowConnectionType, f)
  {
    FilterNull(ProfileVars(conn, args, crypto))
  }

  /** `env_vars`: each secret field with a value, under its environment variable name. */
  function EnvVars(conn: Connection, args: ProfileArgs, crypto: Crypto): (r: map<string, string>)
    ensures forall f :: f in SecretFields ==>
      (EnvVarName(AirflowConnectionType, f) in r <==> DbtValue(conn, args, crypto, f).Some?)
    ensures forall f :: f in SecretFields && EnvVarName(AirflowConnectionType, f) in r ==>
      Some(r[EnvVarName(AirflowConnectionType, f)]) == DbtValue(conn, args, crypto, f)
    ensures forall n :: n in r ==> exists f :: f in SecretFields && n == EnvVarName(AirflowConnectionType, f)
  {
    var key := DbtValue(conn, args, crypto, "private_key");
    var passphrase := DbtValue(conn, args, crypto, "private_key_passphrase");
    var keyName := EnvVarName(AirflowConnectionType, "private_key");
    var passphraseName := EnvVarName(AirflowConnectionType, "private_key_passphrase");
    assert keyName != passphraseName;
    (if key.Some? then map[keyName := key.value] else map[])
    + (if passphrase.Some? then map[passphraseName := passphrase.value] else map[])
  }

  /** The value `can_claim_connection` tests for a required field: a secret
      field's own value (the profile only holds its placeholder), and for any
      other field what the profile holds before null filtering, so that an
      explicit `profile_args` entry decides the claim as it decides the profile. */
  function ClaimValue(conn: Connection, args: ProfileArgs, crypto: Crypto, f: string): Option<string> {
    if f in SecretFields then DbtValue(conn, args, crypto, f) else ResolvedValue(conn, args, crypto, f)
  }

  /** `can_claim_connection`: the connection is a Snowflake one and every
      required field has a truthy value.  A claimed connection's profile,
      before null filtering, holds a non-empty value for every required field. */
  predicate CanClaim(conn: Connection, args: ProfileArgs, crypto: Crypto): (r: bool)
    ensures r ==> forall f :: f in RequiredFields ==> Truthy(ResolvedValue(conn, args, crypto, f))
  {
    && conn.connType == Some(AirflowConnectionType)
    && forall f :: f in RequiredFields ==> Truthy(ClaimValue(conn, args, crypto, f))
  }
}

=== FILE: snowflake_properties.dfy ===
/** Properties of the Snowflake key-content profile mapping that relate
    several calls or hold for all connections. */
module SnowflakeProperties {
  import opened Wrappers
  import opened Strings
  import opened PyDict
  import opened ProfileBase
  import opened SnowflakeKeyContent

  // ---------------------------------------------------------------------
  // Account composition
  // ---------------------------------------------------------------------

  /** Composing the account twice changes nothing: once the region has been
      appended it is part of the account, so it is not appended again. */
  lemma TransformAccountIdempotent(account: string, region: Option<string>)
    ensures TransformAccount(TransformAccount(account, region), region) == TransformAccount(account, region)
  {
    var once := TransformAccount(account, region);
    if once != account {
      assert once == (account + ".") + region.value;
      ContainsSuffix(account + ".", region.value);
    }
  }

  // ---------------------------------------------------------------------
  // Legacy key rewrite
  // ---------------------------------------------------------------------

  /** A legacy key is the plain name behind the namespace, as long as the
      plain name does not itself contain the namespace. */
  lemma StripLegacyKey(name: string)
    requires !Contains(name, LegacyPrefix)
    ensures StripLegacy(LegacyPrefix + name) == name
  {
    RemoveAllLeading(LegacyPrefix, name);
  }

  /** A key that never contains the namespace keeps its name. */
  lemma StripPlainKey(name: string)
    requires !Contains(name, LegacyPrefix)
    ensures StripLegacy(name) == name
  {
  }

  /** The namespace is cut out wherever it occurs in a key, not only at its
      start, even after characters that begin a partial match. */
  lemma StripLegacyInsideKey()
    ensures StripLegacy("user_" + LegacyPrefix + "key") == "user_" + "key"
  {
    var p := LegacyPrefix;
    var s := "user_" + p[..|p| - 1];
    assert s[2..][1] != p[1];
    assert forall i :: 0 <= i < 5 && i != 2 ==> s[i..][0] != p[0];
    assert s[5..] == p[..|p| - 1];
    ContainsNoneBefore(s, p, 5);
    RemoveAllInfix("user_", p, "key");
  }

  /** Normalising a bag that has already been normalised changes nothing,
      unless some key rewrites to the legacy account key itself. */
  lemma NormalizeExtraIdempotent(extra: Dict<string>)
    requires forall i :: 0 <= i < |extra| ==> StripLegacy(extra[i].0) != LegacyAccountKey
    ensures NormalizeExtra(NormalizeExtra(extra)) == NormalizeExtra(extra)
  {
    if LegacyFormat(extra) {
      assert !LegacyFormat(NormalizeExtra(extra));
    }
  }

  /** When a legacy key and its plain name both occur, the entry inserted
      later decides the value, whichever of the two it is. */
  lemma LegacyCollisionLaterWins(name: string, account: string, older: string, newer: string)
    requires !Contains(name, LegacyPrefix)
    requires account != ""
    ensures Get(NormalizeExtra([(LegacyAccountKey, account), (LegacyPrefix + name, older), (name, newer)]), name)
      == Some(newer)
    ensures Get(NormalizeExtra([(LegacyAccountKey, account), (name, older), (LegacyPrefix + name, newer)]), name)
      == Some(newer)
  {
    StripLegacyKey(name);
    StripPlainKey(name);
    var d1: Dict<string> := [(LegacyAccountKey, account), (LegacyPrefix + name, older), (name, newer)];
    assert Get(d1, LegacyAccountKey) == Some(account);
    assert LastRewrittenAt(d1, name, 2);
    var d2: Dict<string> := [(LegacyAccountKey, account), (name, older), (LegacyPrefix + name, newer)];
    assert Get(d2, LegacyAccountKey) == Some(account);
    assert LastRewrittenAt(d2, name, 2);
  }

  /** The rewrite fires only on a truthy legacy account: when that key is
      missing or empty, the bag is read exactly as stored, so legacy keys
      keep their namespace and their plain names stay absent. */
  lemma LegacyRewriteNeedsTruthyAccount(extra: Dict<string>)
    requires !Truthy(Get(extra, LegacyAccountKey))
    ensures NormalizeExtra(extra) == extra
    ensures forall k :: !HasKey(extra, k) ==> Get(NormalizeExtra(extra), k) == None
  {
  }

  /** For example, an empty legacy account leaves `extra__snowflake__database`
      unrewritten, so `database` is not found. */
  lemma EmptyLegacyAccountExample()
    ensures Get(NormalizeExtra([(LegacyAccountKey, ""), ("extra__snowflake__database", "db")]), "database") == None
  {
    var d: Dict<string> := [(LegacyAccountKey, ""), ("extra__snowflake__database", "db")];
    assert Get(d, LegacyAccountKey) == Some("");
    assert !HasKey(d, "database") by {
      assert d[0].0 != "database" by { assert |d[0].0| != |"database"|; }
      assert d[1].0 != "database" by { assert |d[1].0| != |"database"|; }
    }
    LegacyRewriteNeedsTruthyAccount(d);
  }

  /** Writing the normalised bag back into the connection, as `conn` does,
      keeps a well-formed connection well-formed. */
  lemma WriteBackWellFormed(conn: Connection)
    requires WellFormed(conn)
    ensures WellFormed(conn.(extra := Extra(conn)))
  {
  }

  /** The extra bag written in the legacy format: every key gets the namespace. */
  function LegacyOf(current: Dict<string>): (legacy: Dict<string>)
    ensures |legacy| == |current|
    ensures forall i :: 0 <= i < |current| ==> legacy[i] == (LegacyPrefix + current[i].0, current[i].1)
  {
    seq(|current|, i requires 0 <= i < |current| => (LegacyPrefix + current[i].0, current[i].1))
  }

  /** A current-format extra bag whose keys are plain names. */
  ghost predicate PlainExtra(current: Dict<string>) {
    && KeysDistinct(current)
    && (forall i :: 0 <= i < |current| ==> !Contains(current[i].0, LegacyPrefix))
    && Truthy(Get(current, "account"))
  }

  /** Namespacing keeps distinct keys distinct. */
  lemma LegacyKeysDistinct(current: Dict<string>)
    requires KeysDistinct(current)
    ensures KeysDistinct(LegacyOf(current))
  {
    var legacy := LegacyOf(current);
    forall i, j | 0 <= i < j < |legacy| ensures legacy[i].0 != legacy[j].0 {
      assert current[i].0 != current[j].0;
      assert (LegacyPrefix + current[i].0)[|LegacyPrefix|..] == current[i].0;
      assert (LegacyPrefix + current[j].0)[|LegacyPrefix|..] == current[j].0;
    }
  }

  /** A bag of plain names is not in the legacy format, and its namespaced copy is. */
  lemma PlainExtraFormats(current: Dict<string>)
    requires PlainExtra(current)
    ensures !LegacyFormat(current)
    ensures LegacyFormat(LegacyOf(current))
  {
    var legacy := LegacyOf(current);
    assert LegacyAccountKey == LegacyPrefix + "account";
    assert Contains(LegacyAccountKey, LegacyPrefix) by {
      assert LegacyAccountKey[..|LegacyPrefix|] == LegacyPrefix;
    }
    assert !HasKey(current, LegacyAccountKey);
    var a :| 0 <= a < |current| && current[a].0 == "account";
    GetAt(current, a);
    LegacyKeysDistinct(current);
    GetAt(legacy, a);
  }

  /** A legacy-format bag normalises to the same lookups as the current-format
      bag it was written from, and the current-format bag is not rewritten. */
  lemma LegacyNormalizesToCurrent(current: Dict<string>)
    requires PlainExtra(current)
    ensures NormalizeExtra(current) == current
    ensures forall k :: Get(NormalizeExtra(LegacyOf(current)), k) == Get(current, k)
  {
    var legacy := LegacyOf(current);
    PlainExtraFormats(current);
    forall i | 0 <= i < |current| ensures StripLegacy(legacy[i].0) == current[i].0 {
      StripLegacyKey(current[i].0);
    }
    forall k ensures Get(NormalizeExtra(legacy), k) == Get(current, k) {
      if HasKey(current, k) {
        var i :| 0 <= i < |current| && current[i].0 == k;
        GetAt(current, i);
        assert LastRewrittenAt(legacy, k, i);
      } else {
        assert forall i :: 0 <= i < |legacy| ==> StripLegacy(legacy[i].0) != k;
      }
    }
  }

  // ---------------------------------------------------------------------
  // What a mapping's output depends on
  // ---------------------------------------------------------------------

  /** Two connections that look the same to this mapping: equal top-level
      attributes and equal lookups in the normalised extra bag. */
  ghost predicate SameView(c1: Connection, c2: Connection) {
    && c1.connType == c2.connType
    && c1.login == c2.login
    && c1.password == c2.password
    && c1.schema == c2.schema
    && forall k :: Get(Extra(c1), k) == Get(Extra(c2), k)
  }

  /** Connections that look the same give the same field values. */
  lemma SameViewSameValues(c1: Connection, c2: Connection, args: ProfileArgs, crypto: Crypto, f: string)
    requires SameView(c1, c2)
    ensures DbtValue(c1, args, crypto, f) == DbtValue(c2, args, crypto, f)
  {
    if f in ParamMapping {
      assert RawField(c1, f) == RawField(c2, f);
    }
  }

  /** Connections that look the same give the same profile, environment
      variables and claim decision. */
  lemma SameViewSameMapping(c1: Connection, c2: Connection, args: ProfileArgs, crypto: Crypto)
    requires SameView(c1, c2)
    ensures Profile(c1, args, crypto) == Profile(c2, args, crypto)
    ensures EnvVars(c1, args, crypto) == EnvVars(c2, args, crypto)
    ensures CanClaim(c1, args, crypto) == CanClaim(c2, args, crypto)
  {
    forall f ensures DbtValue(c1, args, crypto, f) == DbtValue(c2, args, crypto, f) {
      SameViewSameValues(c1, c2, args, crypto, f);
    }
    SameValuesSameProfile(c1, c2, args, crypto);
    SameValuesSameEnvVars(c1, c2, args, crypto);
    forall f ensures ClaimValue(c1, args, crypto, f) == ClaimValue(c2, args, crypto, f) {
      SameValueSameResolved(c1, c2, args, crypto, f);
    }
  }

  /** The profile is determined by the values of the fields that are not secret. */
  lemma SameValuesSameProfile(c1: Connection, c2: Connection, args: ProfileArgs, crypto: Crypto)
    requires forall f :: f !in SecretFields ==> DbtValue(c1, args, crypto, f) == DbtValue(c2, args, crypto, f)
    ensures Profile(c1, args, crypto) == Profile(c2, args, crypto)
  {
    forall k ensures ResolvedValue(c1, args, crypto, k) == ResolvedValue(c2, args, crypto, k) {
      SameValueSameResolved(c1, c2, args, crypto, k);
    }
    SameResolvedSameProfile(c1, c2, args, crypto);
  }

  lemma SameValueSameResolved(c1: Connection, c2: Connection, args: ProfileArgs, crypto: Crypto, k: string)
    requires k !in SecretFields ==> DbtValue(c1, args, crypto, k) == DbtValue(c2, args, crypto, k)
    ensures ResolvedValue(c1, args, crypto, k) == ResolvedValue(c2, args, crypto, k)
  {
  }

  lemma SameResolvedSameProfile(c1: Connection, c2: Connection, args: ProfileArgs, crypto: Crypto)
    requires forall k :: ResolvedValue(c1, args, crypto, k) == ResolvedValue(c2, args, crypto, k)
    ensures Profile(c1, args, crypto) == Profile(c2, args, crypto)
  {
    ProfileIncluded(c1, c2, args, crypto);
    ProfileIncluded(c2, c1, args, crypto);
    MapsEqual(Profile(c1, args, crypto), Profile(c2, args, crypto));
  }

  /** Every entry of the first profile is in the second when the two resolve every key alike. */
  lemma ProfileIncluded(c1: Connection, c2: Connection, args: ProfileArgs, crypto: Crypto)
    requires forall k :: ResolvedValue(c1, args, crypto, k) == ResolvedValue(c2, args, crypto, k)
    ensures forall k :: k in Profile(c1, args, crypto) ==> k in Profile(c2, args, crypto) && Profile(c1, args, crypto)[k] == Profile(c2, args, crypto)[k]
  {
    var p1, p2 := Profile(c1, args, crypto), Profile(c2, args, crypto);
    forall k | k in p1 ensures k in p2 && p1[k] == p2[k] {
      assert ResolvedValue(c1, args, crypto, k) == ResolvedValue(c2, args, crypto, k);
    }
  }

  /** Two maps holding each other's entries are equal. */
  lemma MapsEqual(p1: map<string, string>, p2: map<string, string>)
    requires forall k :: k in p1 ==> k in p2 && p1[k] == p2[k]
    requires forall k :: k in p2 ==> k in p1 && p2[k] == p1[k]
    ensures p1 == p2
  {
  }

  /** A profile is pinned down by what each key resolves to: a map that
      holds exactly the resolved values is the profile. */
  lemma ProfileIs(conn: Connection, args: ProfileArgs, crypto: Crypto, m: map<string, string>)
    requires forall k :: ResolvedValue(conn, args, crypto, k) == (if k in m then Some(m[k]) else None)
    ensures Profile(conn, args, crypto) == m
  {
    var p := Profile(conn, args, crypto);
    forall k | k in p ensures k in m && p[k] == m[k] {
      assert ResolvedValue(conn, args, crypto, k) == (if k in m then Some(m[k]) else None);
    }
    forall k | k in m ensures k in p && m[k] == p[k] {
      assert ResolvedValue(conn, args, crypto, k) == Some(m[k]);
    }
    MapsEqual(p, m);
  }

  /** Without an override, the account the profile holds is the stored
      account passed through `transform_account` with the stored region. */
  lemma AccountResolved(conn: Connection, args: ProfileArgs, crypto: Crypto, account: string)
    requires "account" !in args
    requires Get(Extra(conn), "account") == Some(account) && account != ""
    ensures ResolvedValue(conn, args, crypto, "account") == Some(TransformAccount(account, Get(Extra(conn), "region")))
  {
    RawAccount(conn);
    assert "account" in ParamMapping && "account" !in SecretFields;
    assert ArgValue(args, "account") == None;
    assert DbtValue(conn, args, crypto, "account") == Some(Transform(conn, crypto, "account", account));
  }

  /** Without an override, the profile's account is the connection's account
      with `.<region>` appended when the region is set and not already in it. */
  lemma AccountGetsRegion(conn: Connection, args: ProfileArgs, crypto: Crypto, account: string, region: string)
    requires "account" !in args
    requires Get(Extra(conn), "account") == Some(account) && account != ""
    requires Get(Extra(conn), "region") == Some(region) && region != ""
    requires !Contains(account, region)
    ensures "account" in Profile(conn, args, crypto) && Profile(conn, args, crypto)["account"] == account + "." + region
  {
    AccountResolved(conn, args, crypto, account);
    assert TransformAccount(account, Some(region)) == account + "." + region;
  }

  /** Without an override and without a region, the account is taken as it is. */
  lemma AccountWithoutRegion(conn: Connection, args: ProfileArgs, crypto: Crypto, account: string)
    requires "account" !in args
    requires Get(Extra(conn), "account") == Some(account) && account != ""
    requires Get(Extra(conn), "region") == None
    ensures "account" in Profile(conn, args, crypto) && Profile(conn, args, crypto)["account"] == account
  {
    AccountResolved(conn, args, crypto, account);
  }

  /** A private key that does not parse as PEM reaches its environment
      variable unchanged, and so does the password. */
  lemma UnparsedKeyPassesThrough(conn: Connection, crypto: Crypto, key: string, password: string)
    requires Get(Extra(conn), "private_key_content") == Some(key) && key != ""
    requires conn.password == Some(password) && password != ""
    requires crypto.loadPem(key, conn.password).None?
    ensures EnvVars(conn, map[], crypto) == map[
      EnvVarName(AirflowConnectionType, "private_key") := key,
      EnvVarName(AirflowConnectionType, "private_key_passphrase") := password]
  {
    RawPrivateKey(conn);
    RawPrivateKeyPassphrase(conn);
    var e := EnvVars(conn, map[], crypto);
    var keyName := EnvVarName(AirflowConnectionType, "private_key");
    var passphraseName := EnvVarName(AirflowConnectionType, "private_key_passphrase");
    assert DbtValue(conn, map[], crypto, "private_key") == Some(key);
    assert DbtValue(conn, map[], crypto, "private_key_passphrase") == Some(password);
    assert keyName in e && passphraseName in e;
    assert e.Keys == {keyName, passphraseName};
  }

  /** A key content that parses under the connection password is exported
      re-encoded, next to the password; under the library's round-trip law,
      decoding the exported key with the exported passphrase gives back the
      key that was read. */
  lemma ParsedKeyReloads(conn: Connection, crypto: Crypto, key: string, password: string, parsed: KeyBytes)
    requires RoundTrips(crypto)
    requires Get(Extra(conn), "private_key_content") == Some(key) && key != ""
    requires conn.password == Some(password) && password != ""
    requires crypto.loadPem(key, conn.password) == Some(parsed)
    ensures EnvVarName(AirflowConnectionType, "private_key") in EnvVars(conn, map[], crypto)
    ensures EnvVarName(AirflowConnectionType, "private_key_passphrase") in EnvVars(conn, map[], crypto)
    ensures EnvVars(conn, map[], crypto)[EnvVarName(AirflowConnectionType, "private_key")] == crypto.derBase64(parsed, conn.password)
    ensures EnvVars(conn, map[], crypto)[EnvVarName(AirflowConnectionType, "private_key_passphrase")] == password
    ensures crypto.loadDerBase64(
      EnvVars(conn, map[], crypto)[EnvVarName(AirflowConnectionType, "private_key")],
      Some(EnvVars(conn, map[], crypto)[EnvVarName(AirflowConnectionType, "private_key_passphrase")])) == Some(parsed)
  {
    RawPrivateKey(conn);
    RawPrivateKeyPassphrase(conn);
    assert DbtValue(conn, map[], crypto, "private_key") == Some(crypto.derBase64(parsed, conn.password));
    assert DbtValue(conn, map[], crypto, "private_key_passphrase") == Some(password);
  }

  /** One override of a field that is not secret changes that key's value and nothing else. */
  lemma OverrideResolved(conn: Connection, args: ProfileArgs, crypto: Crypto, f: string, v: string, k: string)
    requires f !in SecretFields
    ensures ResolvedValue(conn, args[f := Some(v)], crypto, k) ==
      if k == f then Some(v) else ResolvedValue(conn, args, crypto, k)
  {
    if k != f {
      assert ArgValue(args[f := Some(v)], k) == ArgValue(args, k);
    }
  }

  /** A non-empty override of a field that is not secret never stops a claim. */
  lemma OverrideKeepsClaim(conn: Connection, args: ProfileArgs, crypto: Crypto, f: string, v: string)
    requires f !in SecretFields && v != ""
    requires CanClaim(conn, args, crypto)
    ensures CanClaim(conn, args[f := Some(v)], crypto)
  {
    var args' := args[f := Some(v)];
    forall k | k in RequiredFields ensures Truthy(ClaimValue(conn, args', crypto, k)) {
      OverrideResolved(conn, args, crypto, f, v, k);
      if k != f {
        assert ArgValue(args', k) == ArgValue(args, k);
        assert ClaimValue(conn, args', crypto, k) == ClaimValue(conn, args, crypto, k);
      }
    }
  }

  /** `profile_args={"database": ...}` replaces that one entry of the profile
      and leaves every other entry as the connection gives it. */
  lemma OverrideReplacesEntry(conn: Connection, args: ProfileArgs, crypto: Crypto, f: string, v: string)
    requires f !in SecretFields
    ensures Profile(conn, args[f := Some(v)], crypto) == Profile(conn, args, crypto)[f := v]
  {
    var p := Profile(conn, args, crypto);
    var m := p[f := v];
    forall k ensures ResolvedValue(conn, args[f := Some(v)], crypto, k) == (if k in m then Some(m[k]) else None) {
      OverrideResolved(conn, args, crypto, f, v, k);
    }
    ProfileIs(conn, args[f := Some(v)], crypto, m);
  }

  /** The environment variables are determined by the secret fields' values. */
  lemma SameValuesSameEnvVars(c1: Connection, c2: Connection, args: ProfileArgs, crypto: Crypto)
    requires forall f :: f in SecretFields ==> DbtValue(c1, args, crypto, f) == DbtValue(c2, args, crypto, f)
    ensures EnvVars(c1, args, crypto) == EnvVars(c2, args, crypto)
  {
    var e1, e2 := EnvVars(c1, args, crypto), EnvVars(c2, args, crypto);
    assert e1.Keys == e2.Keys;
    assert forall k :: k in e1 ==> e1[k] == e2[k];
  }

  /** A connection stored in the legacy format behaves exactly like the same
      data stored in the current format: same profile, same environment
      variables, same claim decision. */
  lemma LegacyFormatEquivalent(conn: Connection, current: Dict<string>, args: ProfileArgs, crypto: Crypto)
    requires PlainExtra(current)
    ensures Profile(conn.(extra := LegacyOf(current)), args, crypto) == Profile(conn.(extra := current), args, crypto)
    ensures EnvVars(conn.(extra := LegacyOf(current)), args, crypto) == EnvVars(conn.(extra := current), args, crypto)
    ensures CanClaim(conn.(extra := LegacyOf(current)), args, crypto) == CanClaim(conn.(extra := current), args, crypto)
  {
    LegacyNormalizesToCurrent(current);
    SameViewSameMapping(conn.(extra := LegacyOf(current)), conn.(extra := current), args, crypto);
  }

  /** No secret reaches the profile: connections that differ only in their
      password and their private key content give the same profile. */
  lemma ProfileIgnoresSecrets(c1: Connection, c2: Connection, args: ProfileArgs, crypto: Crypto)
    requires c1.connType == c2.connType && c1.login == c2.login && c1.schema == c2.schema
    requires forall k :: k != "private_key_content" ==> Get(Extra(c1), k) == Get(Extra(c2), k)
    ensures Profile(c1, args, crypto) == Profile(c2, args, crypto)
  {
    forall f | f !in SecretFields ensures DbtValue(c1, args, crypto, f) == DbtValue(c2, args, crypto, f) {
      if f in ParamMapping {
        PlainRawAgree(c1, c2, f);
        assert f == "account" ==> Get(Extra(c1), "region") == Get(Extra(c2), "region");
      }
    }
    SameValuesSameProfile(c1, c2, args, crypto);
  }

  /** The fields that are not secret never read the password or the private key content. */
  lemma PlainRawAgree(c1: Connection, c2: Connection, f: string)
    requires f in ParamMapping && f !in SecretFields
    requires c1.login == c2.login && c1.schema == c2.schema
    requires forall k :: k != "private_key_content" ==> Get(Extra(c1), k) == Get(Extra(c2), k)
    ensures RawField(c1, f) == RawField(c2, f)
  {
    assert f in {"account", "user", "database", "warehouse", "schema", "role"};
    if f == "account" {
      RawAccount(c1);
      RawAccount(c2);
      assert Get(Extra(c1), "account") == Get(Extra(c2), "account");
    } else if f == "user" {
      RawUser(c1);
      RawUser(c2);
    } else if f == "database" {
      RawDatabase(c1);
      RawDatabase(c2);
      assert Get(Extra(c1), "database") == Get(Extra(c2), "database");
    } else if f == "warehouse" {
      RawWarehouse(c1);
      RawWarehouse(c2);
      assert Get(Extra(c1), "warehouse") == Get(Extra(c2), "warehouse");
    } else if f == "schema" {
      RawSchema(c1);
      RawSchema(c2);
    } else {
      RawRole(c1);
      RawRole(c2);
      assert Get(Extra(c1), "role") == Get(Extra(c2), "role");
    }
  }

  // ---------------------------------------------------------------------
  // Secrets and their environment variables
  // ---------------------------------------------------------------------

  /** Every secret field's placeholder names that field's environment
      variable, and every environment variable is named by the placeholder
      of some secret field: what dbt substitutes is what the mapping exports. */
  lemma SecretsMatchPlaceholders(conn: Connection, args: ProfileArgs, crypto: Crypto)
    ensures forall f :: f in SecretFields ==>
      PlaceholderName(Profile(conn, args, crypto)[f]) == Some(EnvVarName(AirflowConnectionType, f))
    ensures forall n :: n in EnvVars(conn, args, crypto) ==>
      exists f :: f in SecretFields && PlaceholderName(Profile(conn, args, crypto)[f]) == Some(n)
  {
    forall f | f in SecretFields
      ensures PlaceholderName(Profile(conn, args, crypto)[f]) == Some(EnvVarName(AirflowConnectionType, f))
    {
      PlaceholderRoundTrip(EnvVarName(AirflowConnectionType, f));
    }
  }

  /** A truthy override of a secret field is what its environment variable
      carries, while the profile keeps the placeholder. */
  lemma SecretOverrideReachesEnvVar(conn: Connection, args: ProfileArgs, crypto: Crypto, f: string)
    requires f in SecretFields && Truthy(ArgValue(args, f))
    ensures EnvVars(conn, args, crypto)[EnvVarName(AirflowConnectionType, f)] == args[f].value
    ensures Profile(conn, args, crypto)[f] == EnvVarFormat(AirflowConnectionType, f)
  {
  }

  /** A key the library parses comes out in an encoding the library parses
      back, under the same passphrase, to the same key. */
  lemma TransformedKeyReloads(key: string, password: Option<string>, crypto: Crypto)
    requires RoundTrips(crypto)
    requires crypto.loadPem(key, password).Some?
    ensures crypto.loadDerBase64(TransformPrivateKey(key, password, crypto), password) == crypto.loadPem(key, password)
  {
  }

  // ---------------------------------------------------------------------
  // Claiming
  // ---------------------------------------------------------------------

  /** A field read from the connection keeps a non-empty value through its transform. */
  lemma TransformKeepsTruthy(conn: Connection, crypto: Crypto, f: string, v: string)
    requires EncodesNonEmpty(crypto)
    requires v != ""
    ensures Transform(conn, crypto, f, v) != ""
  {
    if f == "account" {
      assert IsPrefix(v, TransformAccount(v, Get(Extra(conn), "region")));
    }
  }

  /** For a required field, the value the claim tests is the user's
      `profile_args` entry when the field is not secret and has one; any
      other field has a value exactly when it has a truthy override or a
      truthy value in the connection. */
  lemma ClaimValueTruthy(conn: Connection, args: ProfileArgs, crypto: Crypto, f: string)
    requires EncodesNonEmpty(crypto)
    requires f in RequiredFields
    ensures f in ParamMapping
    ensures Truthy(ClaimValue(conn, args, crypto, f)) <==>
      if f in args && f !in SecretFields then Truthy(args[f])
      else Truthy(ArgValue(args, f)) || Truthy(RawField(conn, f))
  {
    if !Truthy(ArgValue(args, f)) && Truthy(RawField(conn, f)) {
      TransformKeepsTruthy(conn, crypto, f, RawField(conn, f).value);
    }
  }

  /** A Snowflake connection is claimed exactly when each required field has
      a value: a field that is not secret and appears in `profile_args` is
      decided by that entry alone, even an empty or `None` one; any other
      required field needs a truthy override or a truthy value in the connection. */
  lemma ClaimIff(conn: Connection, args: ProfileArgs, crypto: Crypto)
    requires EncodesNonEmpty(crypto)
    ensures forall f :: f in RequiredFields ==> f in ParamMapping
    ensures CanClaim(conn, args, crypto) <==>
      && conn.connType == Some(AirflowConnectionType)
      && forall f :: f in RequiredFields ==>
        if f in args && f !in SecretFields then Truthy(args[f])
        else Truthy(ArgValue(args, f)) || Truthy(RawField(conn, f))
  {
    forall f | f in RequiredFields
      ensures Truthy(ClaimValue(conn, args, crypto, f)) <==>
        if f in args && f !in SecretFields then Truthy(args[f])
        else Truthy(ArgValue(args, f)) || Truthy(RawField(conn, f))
    {
      ClaimValueTruthy(conn, args, crypto, f);
    }
  }

  /** A claimed connection yields a complete mapping: the profile holds every
      required field with a non-empty value, and both secrets are exported
      with non-empty values. */
  lemma ClaimedMappingComplete(conn: Connection, args: ProfileArgs, crypto: Crypto)
    requires CanClaim(conn, args, crypto)
    ensures forall f :: f in RequiredFields ==> f in Profile(conn, args, crypto) && Profile(conn, args, crypto)[f] != ""
    ensures forall f :: f in SecretFields ==>
      EnvVarName(AirflowConnectionType, f) in EnvVars(conn, args, crypto) &&
      EnvVars(conn, args, crypto)[EnvVarName(AirflowConnectionType, f)] != ""
  {
    var p := Profile(conn, args, crypto);
    forall f | f in RequiredFields ensures f in p && p[f] != "" {
      assert Truthy(ResolvedValue(conn, args, crypto, f));
    }
    var e := EnvVars(conn, args, crypto);
    forall f | f in SecretFields
      ensures EnvVarName(AirflowConnectionType, f) in e && e[EnvVarName(AirflowConnectionType, f)] != ""
    {
      assert f in RequiredFields;
      assert Truthy(DbtValue(conn, args, crypto, f));
    }
  }

  /** Without overrides, a required field's claim value is its value read from the connection. */
  lemma NoArgsClaimValue(conn: Connection, crypto: Crypto, f: string)
    requires f in RequiredFields
    ensures f in ParamMapping
    ensures ClaimValue(conn, map[], crypto, f) == DbtValue(conn, map[], crypto, f)
    ensures Truthy(DbtValue(conn, map[], crypto, f)) ==> Truthy(RawField(conn, f))
  {
    assert ArgValue(map[], f) == None;
  }

  /** Without overrides, removing the connection type, login, schema or
      password, or the extra bag's account, database, warehouse or private key
      content, stops the mapping from claiming the connection. */
  lemma ClaimNeedsEveryField(conn: Connection, crypto: Crypto)
    requires CanClaim(conn, map[], crypto)
    ensures conn.connType == Some("snowflake")
    ensures Truthy(conn.login) && Truthy(conn.schema) && Truthy(conn.password)
    ensures Truthy(Get(Extra(conn), "account")) && Truthy(Get(Extra(conn), "database"))
    ensures Truthy(Get(Extra(conn), "warehouse")) && Truthy(Get(Extra(conn), "private_key_content"))
  {
    var args: ProfileArgs := map[];
    RawFields(conn);
    forall f | f in RequiredFields ensures Truthy(RawField(conn, f)) {
      NoArgsClaimValue(conn, crypto, f);
    }
    assert Truthy(RawField(conn, "account"));
    assert Truthy(RawField(conn, "user"));
    assert Truthy(RawField(conn, "database"));
    assert Truthy(RawField(conn, "warehouse"));
    assert Truthy(RawField(conn, "schema"));
    assert Truthy(RawField(conn, "private_key"));
    assert Truthy(RawField(conn, "private_key_passphrase"));
  }

  /** On such a connection every required field has a truthy stored value. */
  lemma RequiredRawTruthy(conn: Connection, f: string)
    requires Truthy(conn.login) && Truthy(conn.schema) && Truthy(conn.password)
    requires Truthy(Get(Extra(conn), "account")) && Truthy(Get(Extra(conn), "database"))
    requires Truthy(Get(Extra(conn), "warehouse")) && Truthy(Get(Extra(conn), "private_key_content"))
    requires f in RequiredFields
    ensures f in ParamMapping && Truthy(RawField(conn, f))
  {
    if f == "account" {
      RawAccount(conn);
    } else if f == "user" {
      RawUser(conn);
    } else if f == "database" {
      RawDatabase(conn);
    } else if f == "warehouse" {
      RawWarehouse(conn);
    } else if f == "schema" {
      RawSchema(conn);
    } else if f == "private_key" {
      RawPrivateKey(conn);
    } else {
      RawPrivateKeyPassphrase(conn);
    }
  }

  /** Without overrides, a Snowflake connection with all of those fields is claimed. */
  lemma ClaimWhenAllPresent(conn: Connection, crypto: Crypto)
    requires EncodesNonEmpty(crypto)
    requires conn.connType == Some("snowflake")
    requires Truthy(conn.login) && Truthy(conn.schema) && Truthy(conn.password)
    requires Truthy(Get(Extra(conn), "account")) && Truthy(Get(Extra(conn), "database"))
    requires Truthy(Get(Extra(conn), "warehouse")) && Truthy(Get(Extra(conn), "private_key_content"))
    ensures CanClaim(conn, map[], crypto)
  {
    forall f | f in RequiredFields ensures Truthy(ClaimValue(conn, map[], crypto, f)) {
      RequiredRawTruthy(conn, f);
      NoArgsClaimValue(conn, crypto, f);
      TransformKeepsTruthy(conn, crypto, f, RawField(conn, f).value);
    }
  }
}

=== FILE: strings.dfy ===
/** The few Python `str` operations the profile mapping relies on:
    substring test (`t in s`), `s.replace(pat, "")` and ASCII `upper()`. */
module Strings {

  /** `p` is a prefix of `s` (Python's `s.startswith(p)`). */
  predicate IsPrefix(p: string, s: string) {
    |p| <= |s| && s[..|p|] == p
  }

  /** `s` ends with `p` (Python's `s.endswith(p)`). */
  predicate IsSuffix(p: string, s: string) {
    |p| <= |s| && s[|s| - |p|..] == p
  }

  /** `t` occurs in `s` starting at position `i`. */
  ghost predicate OccursAt(s: string, t: string, i: int) {
    0 <= i && i + |t| <= |s| && s[i..i + |t|] == t
  }

  /** Python's `t in s` on strings: `t` occurs somewhere in `s` as a
      contiguous piece.  The empty string occurs in every string. */
  predicate Contains(s: string, t: string): (r: bool)
    ensures r ==> |t| <= |s|
    decreases |s|
  {
    IsPrefix(t, s) || (|s| > 0 && Contains(s[1..], t))
  }

  /** An occurrence at any position is found by `Contains`. */
  lemma {:induction false} ContainsAt(s: string, t: string, i: int)
    requires OccursAt(s, t, i)
    ensures Contains(s, t)
    decreases i
  {
    if i == 0 {
      assert s[..|t|] == t;
    } else {
      assert s[1..][i - 1..i - 1 + |t|] == s[i..i + |t|];
      ContainsAt(s[1..], t, i - 1);
    }
  }

  /** `Contains` agrees with the positional definition: some position of
      `s` starts an occurrence of `t`. */
  lemma {:induction false} ContainsIff(s: string, t: string)
    ensures Contains(s, t) <==> exists i :: OccursAt(s, t, i)
    decreases |s|
  {
    if exists i :: OccursAt(s, t, i) {
      var i :| OccursAt(s, t, i);
      ContainsAt(s, t, i);
    }
    if Contains(s, t) {
      if IsPrefix(t, s) {
        assert OccursAt(s, t, 0);
      } else {
        ContainsIff(s[1..], t);
        var i :| OccursAt(s[1..], t, i);
        assert s[1..][i..i + |t|] == s[i + 1..i + 1 + |t|];
        assert OccursAt(s, t, i + 1);
      }
    }
  }

  /** `t` cannot occur where no position that leaves room for it holds its first character. */
  lemma {:induction false} ContainsNoStart(s: string, t: string)
    requires |t| > 0
    requires forall i :: 0 <= i <= |s| - |t| ==> s[i] != t[0]
    ensures !Contains(s, t)
    decreases |s|
  {
    if |s| > 0 {
      assert forall i :: 0 <= i <= |s[1..]| - |t| ==> s[1..][i] == s[i + 1];
      ContainsNoStart(s[1..], t);
    }
  }

  /** `t` does not occur in `s` when no occurrence starts in the first `k`
      positions and the rest of `s` does not contain it. */
  lemma {:induction false} ContainsNoneBefore(s: string, t: string, k: int)
    requires 0 <= k <= |s|
    requires forall i :: 0 <= i < k ==> !IsPrefix(t, s[i..])
    requires !Contains(s[k..], t)
    ensures !Contains(s, t)
    decreases k
  {
    if k > 0 {
      assert s[0..] == s;
      assert forall i :: 0 <= i < k - 1 ==> s[1..][i..] == s[i + 1..];
      assert s[1..][k - 1..] == s[k..];
      ContainsNoneBefore(s[1..], t, k - 1);
    }
  }

  /** Appending `t` to any string makes `t` occur in it. */
  lemma {:induction false} ContainsSuffix(s: string, t: string)
    ensures Contains(s + t, t)
    decreases |s|
  {
    if |s| == 0 {
      assert s + t == t;
      assert (s + t)[..|t|] == t;
    } else {
      assert (s + t)[1..] == s[1..] + t;
      ContainsSuffix(s[1..], t);
    }
  }

  /** Python's `s.replace(pat, "")`: scanning left to right, every
      non-overlapping occurrence of `pat` is cut out, not only a leading one.
      A string in which `pat` occurs always gets shorter; any other string
      is returned unchanged. */
  function RemoveAll(s: string, pat: string): (r: string)
    requires |pat| > 0
    ensures |r| <= |s|
    ensures Contains(s, pat) ==> |r| < |s|
    ensures !Contains(s, pat) ==> r == s
    decreases |s|
  {
    if IsPrefix(pat, s) then RemoveAll(s[|pat|..], pat)
    else if |s| == 0 then ""
    else
      assert [s[0]] + s[1..] == s;
      [s[0]] + RemoveAll(s[1..], pat)
  }

  /** `RemoveAll` is the identity exactly on the strings that do not contain `pat`. */
  lemma RemoveAllUnchangedIff(s: string, pat: string)
    requires |pat| > 0
    ensures RemoveAll(s, pat) == s <==> !Contains(s, pat)
  {
  }

  /** A key that starts with `pat` loses that prefix, and the rest of the key
      is then treated like any other string. */
  lemma RemoveAllLeading(pat: string, t: string)
    requires |pat| > 0
    ensures RemoveAll(pat + t, pat) == RemoveAll(t, pat)
  {
    assert IsPrefix(pat, pat + t);
    assert (pat + t)[|pat|..] == t;
  }

  /** When no occurrence of `pat` starts inside a non-empty `a`, the scan
      keeps `a`'s first character and goes on with the rest, where again
      no occurrence starts inside what is left of `a`. */
  lemma InfixStep(a: string, pat: string, b: string)
    requires |a| > 0 && |pat| > 0
    requires !Contains(a + pat[..|pat| - 1], pat)
    ensures RemoveAll(a + pat + b, pat) == [a[0]] + RemoveAll(a[1..] + pat + b, pat)
    ensures !Contains(a[1..] + pat[..|pat| - 1], pat)
  {
    var q := pat[..|pat| - 1];
    var s := a + pat + b;
    assert s[..|pat|] == (a + q)[..|pat|];
    assert (a + q)[1..] == a[1..] + q;
    assert s[1..] == a[1..] + pat + b;
  }

  /** A non-empty string is its first character followed by the rest. */
  lemma ConsRest(a: string, r: string)
    requires |a| > 0
    ensures [a[0]] + (a[1..] + r) == a + r
  {
    assert a == [a[0]] + a[1..];
  }

  /** An occurrence of `pat` in the middle of a string is cut out too,
      when no other occurrence starts before it, and the scan then goes on
      to remove every occurrence in the rest.  An occurrence starting
      inside `a` would end before the last character of `pat`, so "none
      starts inside `a`" is "`a` followed by `pat` minus its last character
      does not contain `pat`". */
  lemma {:induction false} RemoveAllInfix(a: string, pat: string, b: string)
    requires |pat| > 0
    requires !Contains(a + pat[..|pat| - 1], pat)
    ensures RemoveAll(a + pat + b, pat) == a + RemoveAll(b, pat)
    decreases |a|
  {
    if |a| == 0 {
      assert a + pat + b == pat + b;
      RemoveAllLeading(pat, b);
      assert a + RemoveAll(b, pat) == RemoveAll(b, pat);
    } else {
      InfixStep(a, pat, b);
      RemoveAllInfix(a[1..], pat, b);
      ConsRest(a, RemoveAll(b, pat));
    }
  }

  /** ASCII upper-casing of one character. */
  function UpperChar(c: char): (u: char)
    ensures 'a' <= c <= 'z' ==> 'A' <= u <= 'Z'
    ensures !('a' <= c <= 'z') ==> u == c
  {
    if 'a' <= c <= 'z' then (c as int - 'a' as int + 'A' as int) as char else c
  }

  /** Python's `s.upper()` restricted to ASCII letters. */
  function Upper(s: string): (r: string)
    ensures |r| == |s|
    ensures forall i :: 0 <= i < |s| ==> r[i] == UpperChar(s[i])
  {
    seq(|s|, i requires 0 <= i < |s| => UpperChar(s[i]))
  }
}

=== FILE: wrappers.dfy ===
/** Option and Result: Python's `None` and raised exceptions, made explicit. */
module Wrappers {

  /** A value that may be Python's `None`. */
  datatype Option<+T> = None | Some(value: T)

  /** The outcome of an operation that either returns a value or raises an error. */
  datatype Result<+R, +E> = Success(value: R) | Failure(error: E)
}
